=== FILE: README.md ===
# DirectX-RayTracer renderer core in Dafny

This project models the part of the DirectX-RayTracer renderer that has logic
of its own once the GPU is abstracted away. It covers two renderers:
`DXRTRenderer` and the older `CDXCRenderer`.

- **Frame loop.** The model covers `frameBegin`, `frameEnd`, `renderFrame`,
  `renderFrameWithSwapChain`, `recordExecuteAndReadback` and
  `waitForGPURenderFrame`.
  - Each renderer function is a fixed sequence of calls (`Commands.Command`).
  - `Commands.Step` checks each call the way the Direct3D 12 runtime and debug
    layer do:
    - the list must be open to record into, and closed to execute or reset;
    - a barrier's before-state must equal the tracked state of its resource;
    - a clear needs a render target, and a copy needs a copy source;
    - the allocator cannot be reset while the GPU still owns it;
    - Present needs the back buffer in the present state.
  - `Commands.Run` applies the calls in order and stops at the first failure.
  - The renderer state is a `Commands.Renderer` record. It holds:
    - the list state and the state of each back buffer;
    - the readback texture;
    - the fence;
    - the log of signalled values;
    - `swapChainFrameIdx`, the swap chain's own index, and `frameIdx`.
- **Fence.** `Fences.Fence` holds three values:
  - the value the next Signal writes (`renderFramefenceValue`);
  - the last value queued;
  - the GPU's completed value.

  The completed value is an input from the environment. `Fences.Observe` keeps
  it monotone and never past the last queued signal.
- **Setup.** The model covers `createCommandsManagers` and `prepareForRendering`
  of both renderers, including `CDXCRenderer`'s readback in
  `createReadbackBuffer`.
- **Adapter choice.** `createDevice` of both renderers.
- **Descriptor handles.** The swap chain's render-target-view handles are
  computed with 64-bit wrap-around.
- **Readback.** `getQImageForFrame` removes the row padding from the readback
  buffer. `row * rowPitch` is a 32-bit `UINT` product and is modelled as one.
- **PPM writer.** `writeImageToFile` writes plain PPM ("P3") text; both
  variants are modelled.
  - The writer has a reader as its partner: `Ppm.Decode`, built on
    `Decimal.Parse` and `Lines.Split`.
  - The round trip is proved in both directions.

Asserts are modelled as they behave in a debug build: a failed `assert` is an
error result. Two release-build effects are modelled as findings of their own:
- in `frameBegin`, the two Reset calls are written inside `assert`;
- in `CDXCRenderer`'s `createDevice`, `assert(false)` sits in the loop.

Release-build setup is not modelled. There, `CreateDescriptorHeap` is also
written inside `assert` (DXRTRenderer.cpp:306, CDXCRenderer.cpp:96), so setup
itself fails before any frame (see "## Left out").

Modules follow the program's structure:

| module | file |
|---|---|
| `Wrappers` | `Option` and `Result` |
| `Config` | the header constants and initial values |
| `Gpu` | list states, resource states and faults |
| `Fences` | the fence |
| `Commands` | the checked call model |
| `Frames` | `DXRTRenderer`'s setup and frame loop |
| `Legacy` | `CDXCRenderer`'s setup |
| `Adapters` | adapter selection |
| `SwapChain` | render-target-view handles |
| `Readback` | de-padding |
| `Decimal`, `Lines` | decimal text and line/field splitting |
| `Ppm` | writer and reader |

## Model

| member | source | states |
|---|---|---|
| Fences.Created | DirectX-RayTracer/DirectX-RayTracer/DXRTRenderer.cpp:247-256 | a new fence has completed value 0, nothing signalled, and `renderFramefenceValue` 1, above both |
| Fences.Observe | DirectX-RayTracer/DirectX-RayTracer/DXRTRenderer.cpp:313 | a reading of the completed value never goes below the previous one, stays at or below the last signal when it moves, and is the observed value whenever that value is possible |
| Fences.Wait | DirectX-RayTracer/DirectX-RayTracer/DXRTRenderer.cpp:311-320 | the CPU blocks exactly when the completed value is below the target; on return the completed value is at least the target, and target and signal are unchanged; waiting for a value no Signal queued never returns (an error) |
| Fences.Advance | DirectX-RayTracer/DirectX-RayTracer/DXRTRenderer.cpp:543 | `renderFramefenceValue++` on a UINT64: one more below 2^64, 0 after 2^64 - 1, other fields unchanged |
| Commands.Boot | DirectX-RayTracer/DirectX-RayTracer/DXRTRenderer.h:104-118 | right after CreateCommandList the list records, and neither fence, texture nor swap chain exists |
| Commands.InertKeepsState | DirectX-RayTracer/DirectX-RayTracer/DXRTRenderer.cpp:560-570 | recording commands that read no resource state into an open list succeeds and changes nothing tracked |
| Frames.PrepareForRenderingReady | DirectX-RayTracer/DirectX-RayTracer/DXRTRenderer.cpp:41-48 | setup succeeds and leaves the renderer ready: list closed, both back buffers presentable, fence value 1, back buffer 0, frame 1, nothing signalled |
| Frames.FrameBeginOpens | DirectX-RayTracer/DirectX-RayTracer/DXRTRenderer.cpp:494-508 | from a ready state frameBegin succeeds, opens the list and moves exactly the current back buffer from present to render target |
| Frames.FrameBeginNeedsClosedList | DirectX-RayTracer/DirectX-RayTracer/DXRTRenderer.cpp:496 | frameBegin on an open list fails at the allocator reset |
| Frames.DrawKeepsState | DirectX-RayTracer/DirectX-RayTracer/DXRTRenderer.cpp:560-570 | the triangle's draw calls change no tracked state |
| Frames.FrameEndSubmits | DirectX-RayTracer/DirectX-RayTracer/DXRTRenderer.cpp:520-536 | the first four calls of frameEnd return the buffer to present, close, execute and signal the current value |
| Frames.FrameEndClosesList | DirectX-RayTracer/DirectX-RayTracer/DXRTRenderer.cpp:520-529 | the render-target-to-present barrier matches, and the list closes |
| Frames.FrameEndSignals | DirectX-RayTracer/DirectX-RayTracer/DXRTRenderer.cpp:531-536 | executing and signalling queue the current fence value and log it |
| Frames.FrameEndWaits | DirectX-RayTracer/DirectX-RayTracer/DXRTRenderer.cpp:538-547 | after the signal, present, wait and the increments leave the signalled value completed, the fence value one higher (mod 2^64), frame and back-buffer index advanced |
| Frames.FrameEndPresentsAndWaits | DirectX-RayTracer/DirectX-RayTracer/DXRTRenderer.cpp:538-542 | Present moves the swap chain on, and the wait is on the value just signalled, which it leaves completed |
| Frames.FrameEndAdvances | DirectX-RayTracer/DirectX-RayTracer/DXRTRenderer.cpp:543-547 | the fence value, the frame counter and `swapChainFrameIdx` advance only after the wait |
| Frames.FrameEndCloses | DirectX-RayTracer/DirectX-RayTracer/DXRTRenderer.cpp:518-548 | frameEnd from the state frameBegin leaves reaches the next ready state |
| Frames.RenderFrameEffect | DirectX-RayTracer/DirectX-RayTracer/DXRTRenderer.cpp:555-573 | renderFrame from a ready state succeeds, so every barrier's before-state matched, and reaches the state after one frame |
| Frames.RenderFrameCycle | DirectX-RayTracer/DirectX-RayTracer/DXRTRenderer.cpp:555-573 | renderFrame is a closed cycle: ready again, back buffers and list as before, fence value exactly one higher, that value signalled once, frame counter up one, back-buffer index one further round, texture untouched |
| Frames.AfterFrameReady | DirectX-RayTracer/DirectX-RayTracer/DXRTRenderer.cpp:543-547 | the state after a frame is ready again while the fence value stays below 2^64 |
| Frames.AfterFrameWraps | DirectX-RayTracer/DirectX-RayTracer/DXRTRenderer.h:104 | after signalling 2^64 - 1 the fence value is 0 and the renderer is no longer ready |
| Frames.FenceValueWraps | DirectX-RayTracer/DirectX-RayTracer/DXRTRenderer.cpp:543 | the frame that signals 2^64 - 1 still succeeds but wraps the fence value to 0 |
| Frames.FramesFrom | DirectX-RayTracer/DirectX-RayTracer/DXRTRenderer.cpp:555-573 | any run of frames that keeps the fence value below 2^64 succeeds; the values signalled are consecutive, one per frame |
| Frames.FramesFromStart | DirectX-RayTracer/DirectX-RayTracer/DXRTRenderer.h:104-118 | from setup, after n frames the fence value is n + 1 (never 0), exactly 1..n were signalled in order, `frameIdx` equals the fence value, and the back-buffer index is n mod FrameCount |
| Frames.SwapChainFrameFails | DirectX-RayTracer/DirectX-RayTracer/DXRTRenderer.cpp:577-583 | renderFrameWithSwapChain fails from every ready state: its second present-to-render-target barrier finds the buffer already in render target |
| Frames.SwapChainBodyEffect | DirectX-RayTracer/DirectX-RayTracer/DXRTRenderer.cpp:585-602 | without that barrier, the body returns the buffer to present, closes, signals and waits on the current value, and moves the swap chain on while `swapChainFrameIdx` stays put |
| Frames.SwapChainBodyRecords | DirectX-RayTracer/DirectX-RayTracer/DXRTRenderer.cpp:585-593 | binding, clearing, the barrier back to present and the close all succeed |
| Frames.SwapChainBodyClears | DirectX-RayTracer/DirectX-RayTracer/DXRTRenderer.cpp:585-586 | bind and clear succeed on the buffer in render target and change nothing |
| Frames.SwapChainBodyCloses | DirectX-RayTracer/DirectX-RayTracer/DXRTRenderer.cpp:588-593 | the barrier back to present matches and the list closes |
| Frames.SwapChainBodySubmits | DirectX-RayTracer/DirectX-RayTracer/DXRTRenderer.cpp:595-602 | execute, signal, present and wait leave the current value signalled and completed, the fence value not advanced |
| Frames.SwapChainBodySignals | DirectX-RayTracer/DirectX-RayTracer/DXRTRenderer.cpp:595-598 | the body signals the current fence value |
| Frames.SwapChainBodyPresents | DirectX-RayTracer/DirectX-RayTracer/DXRTRenderer.cpp:600-602 | the body presents and then waits on the value it signalled |
| Frames.SwapChainFrameEndFails | DirectX-RayTracer/DirectX-RayTracer/DXRTRenderer.cpp:588-603 | after the body the list is closed and the buffer presentable, so frameEnd's barrier meets a closed list, and its close is a second close; even on a reopened list the barrier fails, because it claims render target while the buffer is present |
| Frames.SwapChainSignalsTwice | DirectX-RayTracer/DirectX-RayTracer/DXRTRenderer.cpp:598 | the body and frameEnd signal twice with no increment between them |
| Frames.ReleaseBuildFrameFails | DirectX-RayTracer/DirectX-RayTracer/DXRTRenderer.cpp:496-497 | with asserts compiled out neither Reset runs, and the first barrier fails on the closed list |
| Frames.ReadbackRestoresState | DirectX-RayTracer/DirectX-RayTracer/DXRTRenderer.cpp:421-460 | the readback succeeds exactly when the list is open, the texture is a render target and the fence exists; it then leaves the texture in render target, closes the list and signals the current value; without a fence it fails at the signal |
| Frames.ReadbackCopies | DirectX-RayTracer/DirectX-RayTracer/DXRTRenderer.cpp:423-447 | the barrier, the copy and the swapped barrier take the texture to copy source and back |
| Frames.ReadbackSubmits | DirectX-RayTracer/DirectX-RayTracer/DXRTRenderer.cpp:449-459 | close, execute and signal: the signal needs the fence |
| Legacy.CreationLeavesListOpen | DirectX-RayTracer/DirectX-RayTracer/CDXCRenderer.cpp:47-62 | the older createCommandsManagers leaves the new list recording, where DXRTRenderer's closes it |
| Legacy.TextureCreated | DirectX-RayTracer/DirectX-RayTracer/CDXCRenderer.cpp:77-84 | the state createCommandsManagers and createGPUTexture reach from start-up: the list still open and the texture in the render-target state |
| Legacy.ReadbackClosesOnce | DirectX-RayTracer/DirectX-RayTracer/CDXCRenderer.cpp:142-171 | createReadbackBuffer closes the list exactly once |
| Legacy.SetupClosesOnce | DirectX-RayTracer/DirectX-RayTracer/CDXCRenderer.cpp:14-21 | prepareForRendering closes the list exactly once, inside createReadbackBuffer |
| Legacy.PrepareAsWrittenFails | DirectX-RayTracer/DirectX-RayTracer/CDXCRenderer.cpp:14-21 | as written, createReadbackBuffer signals a fence that createFence has not yet created (an invalid call whose result is not checked); the model's run stops there with `FenceNotCreated` |
| Legacy.FenceFirstClosesOnce | DirectX-RayTracer/DirectX-RayTracer/CDXCRenderer.cpp:14-21 | with createFence moved first, the list is still closed exactly once |
| Legacy.FenceFirstPrepares | DirectX-RayTracer/DirectX-RayTracer/CDXCRenderer.cpp:142-171 | with the fence created first, setup succeeds; the barrier pair leaves the texture in render target, the list is closed and value 1 is signalled once |
| Adapters.MostVramUnique | DirectX-RayTracer/DirectX-RayTracer/DXRTRenderer.cpp:92-116 | the selection criterion picks at most one adapter |
| Adapters.ChooseAdapter | DirectX-RayTracer/DirectX-RayTracer/DXRTRenderer.cpp:92-116 | the chosen adapter is a hardware adapter with more than 0 bytes of dedicated memory and the most of any hardware adapter, the earliest on a tie; none is chosen exactly when no adapter qualifies |
| Adapters.CreateDevice | DirectX-RayTracer/DirectX-RayTracer/DXRTRenderer.cpp:87-131 | succeeds exactly when some adapter qualifies and creation succeeds, and then on the adapter with the most dedicated video memory; no qualifying adapter fails the adapter assert; a failed creation fails the other; no other error |
| Adapters.LegacyCreateDevice | DirectX-RayTracer/DirectX-RayTracer/CDXCRenderer.cpp:24-45 | the first adapter creation succeeds on is used; with asserts on, any failure ends the walk, so success means the first adapter worked; with asserts off, it succeeds exactly when creation works on some adapter; an empty enumeration, or a release build where every creation failed, leaves no adapter |
| SwapChain.HandleAt | DirectX-RayTracer/DirectX-RayTracer/DXRTRenderer.cpp:293-294 | a handle is below 2^64 and, when nothing wraps, is heap start plus i descriptor sizes |
| SwapChain.RtvHandles | DirectX-RayTracer/DirectX-RayTracer/DXRTRenderer.cpp:286-297 | the loop writes FrameCount handles, handle i at heap start plus i descriptors |
| SwapChain.HandlesLaidOut | DirectX-RayTracer/DirectX-RayTracer/DXRTRenderer.h:108-113 | without wrap-around the handles are exactly one descriptor size apart, strictly increasing when the size is positive, and inside the heap's FrameCount descriptors |
| SwapChain.HandlesDistinct | DirectX-RayTracer/DirectX-RayTracer/DXRTRenderer.cpp:288-296 | the two handles differ exactly when the descriptor size is not a multiple of 2^64 |
| Decimal.Dec | DirectX-RayTracer/DirectX-RayTracer/DXRTRenderer.cpp:484 | `operator<<` on an int writes canonical decimal: digits only, a leading 0 only for 0, one digit exactly below 10 |
| Decimal.ValueOfDec | DirectX-RayTracer/DirectX-RayTracer/DXRTRenderer.cpp:484 | the digits written denote the value |
| Decimal.DecOfValue | DirectX-RayTracer/DirectX-RayTracer/DXRTRenderer.cpp:484 | every canonical digit string is what some value prints as |
| Decimal.ParseDec | DirectX-RayTracer/DirectX-RayTracer/DXRTRenderer.cpp:484 | reading a number back succeeds with n exactly on the text n is written as |
| Decimal.DecInjective | DirectX-RayTracer/DirectX-RayTracer/DXRTRenderer.cpp:484 | distinct values are written differently |
| Lines.SplitJoin | DirectX-RayTracer/DirectX-RayTracer/DXRTRenderer.cpp:484-487 | cutting separator-joined fields at the separator gives the fields back |
| Lines.JoinSplit | DirectX-RayTracer/DirectX-RayTracer/DXRTRenderer.cpp:484-487 | joining the cut fields gives the text back |
| Readback.RowOffset | DirectX-RayTracer/DirectX-RayTracer/DXRTRenderer.cpp:71-72 | the UINT product `row * rowPitch` is below 2^32, at most the true product, and equal to it when that fits |
| Readback.Depad | DirectX-RayTracer/DirectX-RayTracer/DXRTRenderer.cpp:66-77 | the image has the texture's height, and every row is width * 4 bytes |
| Readback.GetImageForFrame | DirectX-RayTracer/DirectX-RayTracer/DXRTRenderer.cpp:68-77 | the row loop builds exactly the de-padded image |
| Readback.CopyScanline | DirectX-RayTracer/DirectX-RayTracer/DXRTRenderer.cpp:72-76 | one memcpy copies the row's width * 4 bytes from the row's offset |
| Readback.DepadBytes | DirectX-RayTracer/DirectX-RayTracer/DXRTRenderer.cpp:68-77 | while the offsets fit in a UINT, byte k of row r is buffer byte r * rowPitch + k |
| Readback.DepadByte | DirectX-RayTracer/DirectX-RayTracer/DXRTRenderer.cpp:72-76 | byte k of row r is the buffer's byte at the row's (32-bit) offset plus k |
| Readback.OnlyPixelsCopied | DirectX-RayTracer/DirectX-RayTracer/DXRTRenderer.cpp:68-77 | two buffers give the same image exactly when they agree on every pixel byte: padding is never copied, every pixel byte is |
| Readback.EveryPixelCopied | DirectX-RayTracer/DirectX-RayTracer/DXRTRenderer.cpp:68-77 | equal images mean equal pixel bytes |
| Readback.NoPaddingCopied | DirectX-RayTracer/DirectX-RayTracer/DXRTRenderer.cpp:68-77 | equal pixel bytes mean equal images, whatever the padding holds |
| Readback.DepadPad | DirectX-RayTracer/DirectX-RayTracer/DXRTRenderer.cpp:68-77 | an image laid out with padding to any pitch that holds a row, with offsets that fit in a UINT, is read back unchanged |
| Ppm.RowValues | DirectX-RayTracer/DirectX-RayTracer/DXRTRenderer.cpp:478-485 | a row yields 3 values per pixel, each at most 255 |
| Ppm.Values | DirectX-RayTracer/DirectX-RayTracer/DXRTRenderer.cpp:475-488 | the written values form a well-formed image of the texture's size |
| Ppm.ValuesMatchScanlines | DirectX-RayTracer/DirectX-RayTracer/DXRTRenderer.cpp:481-484 | the PPM writer and the readback use the same 4-byte pixel stride: channel ch of pixel c is byte 4c + ch of the de-padded row |
| Ppm.MaxValueTextDenotes | DirectX-RayTracer/DirectX-RayTracer/DXRTRenderer.cpp:473 | the header's "255" reads as 255, the bound every channel keeps |
| Ppm.WriteRows | DirectX-RayTracer/DirectX-RayTracer/DXRTRenderer.cpp:475-488 | the row loop writes one line per row, each ended by a newline |
| Ppm.WriteRow | DirectX-RayTracer/DirectX-RayTracer/DXRTRenderer.cpp:479-486 | the column loop writes the row's values in order |
| Ppm.WritePixel | DirectX-RayTracer/DirectX-RayTracer/DXRTRenderer.cpp:481-485 | channels 0..2 of the pixel, alpha skipped, each followed by a space |
| Ppm.WriteImageToFile | DirectX-RayTracer/DirectX-RayTracer/DXRTRenderer.cpp:473-488 | the file text is "P3", the size line "W H", "255", then the rows: the encoding of the image's values |
| Ppm.LegacyWriteImageToFile | DirectX-RayTracer/DirectX-RayTracer/CDXCRenderer.cpp:204-219 | the older writer produces the same text but with width and height run together |
| Ppm.ParseSizeLine | DirectX-RayTracer/DirectX-RayTracer/DXRTRenderer.cpp:473 | the size line reads back as its width and height |
| Ppm.SizeLineInjective | DirectX-RayTracer/DirectX-RayTracer/DXRTRenderer.cpp:473 | different sizes give different size lines |
| Ppm.DecodeEncode | DirectX-RayTracer/DirectX-RayTracer/DXRTRenderer.cpp:473-488 | the text written for a well-formed image reads back as that image |
| Ppm.EncodeDecode | DirectX-RayTracer/DirectX-RayTracer/DXRTRenderer.cpp:473-488 | any text the reader accepts is exactly what the writer produces for the decoded image |
| Ppm.DecodeExactly | DirectX-RayTracer/DirectX-RayTracer/DXRTRenderer.cpp:473-488 | a text decodes to an image exactly when the image is well formed and the text is its encoding |
| Ppm.LegacyHeaderAmbiguous | DirectX-RayTracer/DirectX-RayTracer/CDXCRenderer.cpp:204 | sizes 1×23 and 12×3 both write the size line "123", so the header alone does not fix the size, while the separated size lines differ |
| Ppm.LegacyLinesFixHeight | DirectX-RayTracer/DirectX-RayTracer/CDXCRenderer.cpp:204-219 | only the header is ambiguous: two texts the older writer produces for well-formed images are equal only if the heights are, since one line follows per row |
| Ppm.LegacyNeverDecodes | DirectX-RayTracer/DirectX-RayTracer/CDXCRenderer.cpp:204 | the reader of DXRTRenderer's format, `Ppm.Decode`, rejects every text the older writer produces |

## Left out

- Direct3D 12 and DXGI objects are not modelled as objects: device, queue, allocator, heaps, descriptors, root signature, pipeline state, committed resources, `Map`/`Unmap` and `CopyTextureRegion`. These are foreign calls. A call appears only as the `Commands.Command` whose effect on tracked state it has. `HRESULT`s other than the ones modelled are taken to succeed.
- `createRootSignature`, `createVertexBuffer`, `createViewport`, `createPipelineState`, `createDescriptorHeapForSwapChain` and `createRenderTargetView` touch no tracked state and are not modelled separately. `GetDescriptorHandleIncrementSize` and the heap start are parameters.
- CPU/GPU concurrency, the completion event and `WaitForSingleObject` are not modelled. The GPU's completed value is an input to each wait.
- Floating-point code is left out: the clear-colour animation (DXRTRenderer.cpp:510-515), viewport and scissor values, vertex data and all of `CRTCamera`.
- The Qt user interface (`DXRTMainWindow`, `DXRTViewportWidget`, `DXRTApp`, `Application.cpp`) is not modelled.
- File I/O: only the text `writeImageToFile` produces is modelled. The Netpbm limit of 70 characters per line is not claimed; the writer puts a whole row on one line.
- Ppm.LegacyNeverDecodes: a general plain-PPM reader (any whitespace, comments, no trailing space after a row's last value) is not modelled. `Ppm.Decode` reads exactly the layout DXRTRenderer's writer produces, so the lemma says that reader rejects the older text, not that no PPM reader accepts it.
- `QImage` construction from the 64-bit texture width is not modelled; the image is a sequence of byte rows.
- Frames.FramesFromStart: `frameIdx` is a C++ `int`. The model keeps it unbounded, so its overflow after 2^31 - 1 frames is not modelled.
- Fences.Wait: a wait on a value no Signal has queued blocks forever in the source. The model returns the error `WaitNeverSignaled` instead.
- Commands.Run: a fault on a call whose result the source does not check still ends the model's run, while the program carries on past it. This covers the Signal at CDXCRenderer.cpp:171 and the barrier, Close, Signal and Present at DXRTRenderer.cpp:580-600. What the runtime does after such a call (the debug layer's report, a removed device) is not modelled.
- Asserts are modelled as failures (a debug build) everywhere except `frameBegin`'s Resets and `CDXCRenderer`'s `assert(false)`. A release build is not followed past any other failed check.
- Release-build setup is not modelled. DXRTRenderer.cpp:306 writes the `CreateDescriptorHeap` call inside `assert`, so NDEBUG removes it. `createRenderTargetViewsFromSwapChain` (DXRTRenderer.cpp:293) then calls through the null heap pointer during `prepareForRendering`, and setup fails before any frame. CDXCRenderer.cpp:96 has the same pattern, with the null heap used at line 98. The model has no descriptor-heap state, so it does not represent these failures. Frames.ReleaseBuildFrameFails therefore describes frameBegin's own release-build defect, starting from a ready state.
- Adapters.LegacyCreateDevice: in a release build that finds no working adapter, the source goes on with a null adapter. The model ends it with `NoAdapter`.
- `CDXCRenderer`'s `waitForGPURenderFrame` (CDXCRenderer.cpp:183-192) is the same function as DXRTRenderer's and is modelled once, as `Fences.Wait`.
- `CDXCRenderer.cpp` does not compile: `hr` is declared twice, and members are used that `CDXCRenderer.h` does not declare. Its calls are modelled as written. Its fence value is taken to start at 1, as in `DXRTRenderer.h`, because its own header is not part of this model.
- `CDXCRenderer.h`, `CRTLight.h` and `DXRTRenderer::render`/`stopRendering` have no behaviour to model.

## Findings

| source | as written | input that shows it | evidently intended | confidence | as-written member | corrected member |
|---|---|---|---|---|---|---|
| DirectX-RayTracer/DirectX-RayTracer/CDXCRenderer.cpp:204 | width and height are written with nothing between them | width 1, height 23 and width 12, height 3 both give the size line "123" | a space between width and height, as DXRTRenderer.cpp:473 writes | high (not executed) | Ppm.LegacyHeaderAmbiguous | Ppm.DecodeExactly |
| DirectX-RayTracer/DirectX-RayTracer/CDXCRenderer.cpp:14-21 | createReadbackBuffer signals `renderFramefence` (line 171) before createFence creates it: an invalid call whose result is not checked | any run of prepareForRendering | createFence before createReadbackBuffer | high (not executed) | Legacy.PrepareAsWrittenFails | Legacy.FenceFirstPrepares |
| DirectX-RayTracer/DirectX-RayTracer/DXRTRenderer.cpp:575-604 | a second present-to-render-target barrier after frameBegin's, then the body's own close, signal and present before frameEnd repeats them | any ready renderer | the body of renderFrame between frameBegin and frameEnd | high (not executed) | Frames.SwapChainFrameFails | Frames.RenderFrameCycle |
| DirectX-RayTracer/DirectX-RayTracer/DXRTRenderer.cpp:496-497 | both Reset calls are the argument of `assert`, so NDEBUG removes them | frameBegin compiled with NDEBUG, called on any ready renderer (in the same build setup already fails earlier, at DXRTRenderer.cpp:306) | the Resets called outside the assert, and their result checked | high (not executed) | Frames.ReleaseBuildFrameFails | Frames.FrameBeginOpens |

=== FILE: adapters.dfy ===
/** Adapter selection: which GPU the renderer creates its device on. The
    DXGI enumeration becomes a sequence of adapter descriptions, and whether
    D3D12CreateDevice succeeds becomes an input. */
module Adapters {
  import opened Wrappers
  import opened Gpu

  /** The fields of DXGI_ADAPTER_DESC1 the selection reads: the software flag
      and DedicatedVideoMemory. */
  datatype AdapterDesc = AdapterDesc(software: bool, dedicatedVideoMemory: nat)

  /** An adapter that can win the selection: a hardware adapter with more
      dedicated memory than the initial maximum of 0. */
  predicate Qualifies(d: AdapterDesc)
  {
    !d.software && d.dedicatedVideoMemory > 0
  }

  /** Adapter `k`, among the first `n`, qualifies, has the most dedicated
      memory of every hardware adapter among them, and strictly more than
      every hardware adapter before it (so the earliest wins a tie). */
  ghost predicate MostVramAmong(adapters: seq<AdapterDesc>, n: nat, k: nat)
  {
    && k < n <= |adapters|
    && Qualifies(adapters[k])
    && (forall j | 0 <= j < n && !adapters[j].software ::
          adapters[j].dedicatedVideoMemory <= adapters[k].dedicatedVideoMemory)
    && (forall j | 0 <= j < k && !adapters[j].software ::
          adapters[j].dedicatedVideoMemory < adapters[k].dedicatedVideoMemory)
  }

  ghost predicate MostVram(adapters: seq<AdapterDesc>, k: nat)
  {
    MostVramAmong(adapters, |adapters|, k)
  }

  /** The selection has at most one answer. */
  lemma MostVramUnique(adapters: seq<AdapterDesc>, i: nat, k: nat)
    requires MostVram(adapters, i) && MostVram(adapters, k)
    ensures i == k
  {
  }

  /** The enumeration loop of createDevice: skip software adapters and keep
      the adapter whose dedicated memory is strictly above the best so far. */
  method ChooseAdapter(adapters: seq<AdapterDesc>) returns (best: Option<nat>)
    ensures best.Some? ==> MostVram(adapters, best.value)
    ensures best.None? <==> forall j | 0 <= j < |adapters| :: !Qualifies(adapters[j])
  {
    best := None;
    var maxVram := 0;
    var i := 0;
    while i < |adapters|
      invariant 0 <= i <= |adapters|
      invariant best.None? ==> maxVram == 0 && forall j | 0 <= j < i :: !Qualifies(adapters[j])
      invariant best.Some? ==> MostVramAmong(adapters, i, best.value)
                               && maxVram == adapters[best.value].dedicatedVideoMemory
    {
      var d := adapters[i];
      if !d.software && d.dedicatedVideoMemory > maxVram {
        maxVram := d.dedicatedVideoMemory;
        best := Some(i);
      }
      i := i + 1;
    }
  }

  /** createDevice: pick the adapter, assert one was found, create the device
      on it and assert that succeeded. `created` is whether D3D12CreateDevice
      succeeds on the chosen adapter. */
  method CreateDevice(adapters: seq<AdapterDesc>, created: bool) returns (r: Result<nat, Fault>)
    ensures r.Ok? ==> MostVram(adapters, r.value) && created
    ensures r.Ok? <==> created && exists j | 0 <= j < |adapters| :: Qualifies(adapters[j])
    ensures r.Err? ==> r.error == NoHardwareAdapter || r.error == DeviceCreationFailed
    ensures r == Err(NoHardwareAdapter) <==> forall j | 0 <= j < |adapters| :: !Qualifies(adapters[j])
    ensures r == Err(DeviceCreationFailed) <==> !created && exists j | 0 <= j < |adapters| :: Qualifies(adapters[j])
  {
    var best := ChooseAdapter(adapters);
    if best.None? {
      return Err(NoHardwareAdapter);
    }
    if !created {
      return Err(DeviceCreationFailed);
    }
    return Ok(best.value);
  }

  /** CDXCRenderer's createDevice: walk the enumeration and stop at the first
      adapter D3D12CreateDevice succeeds on; `created[i]` is whether it
      succeeds on adapter i. A failure hits `assert(false)`, which ends the
      program in a build with asserts enabled and is skipped otherwise; an
      empty walk leaves `adapter` null and fails `assert(adapter)`. */
  method LegacyCreateDevice(created: seq<bool>, assertsEnabled: bool) returns (r: Result<nat, Fault>)
    ensures r.Ok? ==> r.value < |created| && created[r.value]
                      && forall j | 0 <= j < r.value :: !created[j]
    ensures r.Err? ==> r.error == NoAdapter || r.error == DeviceCreationFailed
    ensures r == Err(NoAdapter) <==> (|created| == 0 || (!assertsEnabled && true !in created))
    ensures assertsEnabled ==> (r.Ok? <==> |created| > 0 && created[0])
    ensures !assertsEnabled ==> (r.Ok? <==> true in created)
  {
    var i := 0;
    while i < |created|
      invariant 0 <= i <= |created|
      invariant forall j | 0 <= j < i :: !created[j]
      invariant assertsEnabled ==> i == 0
    {
      if created[i] {
        return Ok(i);
      }
      if assertsEnabled {
        return Err(DeviceCreationFailed);
      }
      i := i + 1;
    }
    return Err(NoAdapter);
  }
}

=== FILE: commands.dfy ===
/** The renderer's command-list, resource-state and fence bookkeeping, and the
    checks the Direct3D 12 runtime and debug layer apply to every call. Each
    renderer function is modelled as the sequence of calls it makes; `Run`
    applies them one by one and stops at the first call that fails. */
module Commands {
  import opened Wrappers
  import opened Config
  import opened Gpu
  import opened Fences

  /** The resource a barrier, clear or copy names. */
  datatype Target =
    | SwapChainBuffer  // renderTargets[swapChainFrameIdx]
    | Offscreen        // renderTarget, the texture copied into the readback buffer

  /** Recorded commands. Only the clear and the copy depend on a resource state. */
  datatype Op =
    | SetRenderTargets      // OMSetRenderTargets(rtvHandles[swapChainFrameIdx])
    | ClearRenderTarget     // ClearRenderTargetView(rtvHandles[swapChainFrameIdx])
    | SetPipelineState
    | SetRootSignature
    | SetPrimitiveTopology
    | SetVertexBuffers
    | SetViewports
    | SetScissorRects
    | DrawInstanced(vertexCount: nat, instanceCount: nat)
    | CopyToReadback        // CopyTextureRegion from renderTarget into the readback buffer

  /** One call the renderer makes. */
  datatype Command =
    | CreateFence          // createFence
    | CreateSwapChain      // createSwapChain + GetBuffer: FrameCount buffers in the present state
    | CreateOffscreen      // createGPUTexture: renderTarget created in the render-target state
    | ResetAllocator       // commandAllocator->Reset()
    | ResetList            // commandList->Reset(commandAllocator, nullptr)
    | Barrier(target: Target, before: ResourceState, after: ResourceState)
    | Record(op: Op)
    | CloseList            // commandList->Close()
    | ExecuteList          // commandQueue->ExecuteCommandLists
    | SignalFence          // commandQueue->Signal(renderFramefence, renderFramefenceValue)
    | PresentFrame         // swapChain->Present(0, 0)
    | WaitForGpu(observed: nat) // waitForGPURenderFrame, the GPU's value read as `observed`
    | AdvanceFenceValue    // renderFramefenceValue++
    | AdvanceFrameIdx      // frameIdx++
    | SyncBackBufferIndex  // swapChainFrameIdx = swapChain->GetCurrentBackBufferIndex()

  /** The renderer's tracked state.
      `backBuffers` is the state of each swap-chain buffer (empty before the
      swap chain exists); `offscreen` the state of the readback texture;
      `signals` every value passed to Signal so far, in order; `presentIndex`
      the swap chain's own current back buffer. */
  datatype Renderer = Renderer(
    list: ListState,
    backBuffers: seq<ResourceState>,
    offscreen: Option<ResourceState>,
    fence: Option<Fence>,
    signals: seq<nat>,
    swapChainFrameIdx: nat,
    presentIndex: nat,
    frameIdx: int)

  /** The state right after CreateCommandList: a new command list is open for
      recording, nothing else exists yet, and the members hold their
      initialisers. */
  function Boot(): (s: Renderer)
    ensures s.list == Recording && s.fence.None? && s.offscreen.None? && s.backBuffers == []
  {
    Renderer(Recording, [], None, None, [], InitialSwapChainFrameIdx, 0, InitialFrameIdx)
  }

  /** The tracked state of a target, if it exists. */
  function Tracked(s: Renderer, t: Target): Result<ResourceState, Fault>
  {
    match t
    case SwapChainBuffer =>
      if s.swapChainFrameIdx < |s.backBuffers| then Ok(s.backBuffers[s.swapChainFrameIdx])
      else Err(NoSuchResource)
    case Offscreen =>
      if s.offscreen.Some? then Ok(s.offscreen.value) else Err(NoSuchResource)
  }

  function SetTracked(s: Renderer, t: Target, st: ResourceState): Renderer
    requires Tracked(s, t).Ok?
  {
    match t
    case SwapChainBuffer => s.(backBuffers := s.backBuffers[s.swapChainFrameIdx := st])
    case Offscreen => s.(offscreen := Some(st))
  }

  /** Recording one command into an open list. */
  function RecordOp(s: Renderer, op: Op): Result<Renderer, Fault>
    requires s.list == Recording
  {
    match op
    case SetRenderTargets =>
      if s.swapChainFrameIdx < |s.backBuffers| then Ok(s) else Err(NoSuchResource)
    case ClearRenderTarget =>
      var st :- Tracked(s, SwapChainBuffer);
      if st == RenderTarget then Ok(s) else Err(WrongState(st, RenderTarget))
    case CopyToReadback =>
      var st :- Tracked(s, Offscreen);
      if st == CopySource then Ok(s) else Err(WrongState(st, CopySource))
    case _ => Ok(s)
  }

  /** The effect of one call, or the reason it fails. */
  function Step(s: Renderer, c: Command): Result<Renderer, Fault>
  {
    match c
    case CreateFence => Ok(s.(fence := Some(Fences.Created())))
    case CreateSwapChain =>
      Ok(s.(backBuffers := seq(FrameCount, _ => Present), presentIndex := 0))
    case CreateOffscreen => Ok(s.(offscreen := Some(RenderTarget)))
    case ResetAllocator =>
      if s.list == Recording then Err(ListNotClosed)
      else if s.fence.Some? && s.fence.value.completed < s.fence.value.signaled then Err(AllocatorInUse)
      else Ok(s)
    case ResetList =>
      if s.list == Recording then Err(ListNotClosed) else Ok(s.(list := Recording))
    case Barrier(t, before, after) =>
      if s.list == Closed then Err(ListNotRecording)
      else
        var st :- Tracked(s, t);
        if st != before then Err(BarrierMismatch(st, before)) else Ok(SetTracked(s, t, after))
    case Record(op) =>
      if s.list == Closed then Err(ListNotRecording) else RecordOp(s, op)
    case CloseList =>
      if s.list == Closed then Err(ListNotRecording) else Ok(s.(list := Closed))
    case ExecuteList =>
      if s.list == Recording then Err(ListNotClosed) else Ok(s)
    case SignalFence =>
      if s.fence.None? then Err(FenceNotCreated)
      else
        var f := s.fence.value;
        Ok(s.(fence := Some(f.(signaled := f.target)), signals := s.signals + [f.target]))
    case PresentFrame =>
      if s.presentIndex >= |s.backBuffers| then Err(NoSuchResource)
      else if s.backBuffers[s.presentIndex] != Present then Err(WrongState(s.backBuffers[s.presentIndex], Present))
      else Ok(s.(presentIndex := (s.presentIndex + 1) % FrameCount))
    case WaitForGpu(observed) =>
      if s.fence.None? then Err(FenceNotCreated)
      else
        var w :- Fences.Wait(s.fence.value, observed);
        Ok(s.(fence := Some(w.fence)))
    case AdvanceFenceValue =>
      if s.fence.None? then Err(FenceNotCreated)
      else Ok(s.(fence := Some(Fences.Advance(s.fence.value))))
    case AdvanceFrameIdx => Ok(s.(frameIdx := s.frameIdx + 1))
    case SyncBackBufferIndex => Ok(s.(swapChainFrameIdx := s.presentIndex))
  }

  /** Make the calls in order; the first failure ends the run. */
  function Run(s: Renderer, cmds: seq<Command>): Result<Renderer, Fault>
    decreases |cmds|
  {
    if cmds == [] then Ok(s)
    else
      var t :- Step(s, cmds[0]);
      Run(t, cmds[1..])
  }

  /** Running two call sequences back to back is running their concatenation. */
  lemma {:induction false} RunAppend(s: Renderer, a: seq<Command>, b: seq<Command>)
    ensures Run(s, a + b) == (match Run(s, a) case Ok(t) => Run(t, b) case Err(e) => Err(e))
    decreases |a|
  {
    if a == [] {
      assert a + b == b;
    } else {
      assert (a + b)[0] == a[0];
      assert (a + b)[1..] == a[1..] + b;
      match Step(s, a[0])
      case Err(e) =>
      case Ok(t) => RunAppend(t, a[1..], b);
    }
  }

  /** A recorded command whose validity does not depend on any resource state. */
  predicate Inert(c: Command)
  {
    c.Record? && !c.op.SetRenderTargets? && !c.op.ClearRenderTarget? && !c.op.CopyToReadback?
  }

  /** Recording inert commands into an open list changes no tracked state. */
  lemma {:induction false} InertKeepsState(s: Renderer, cmds: seq<Command>)
    requires s.list == Recording
    requires forall i :: 0 <= i < |cmds| ==> Inert(cmds[i])
    ensures Run(s, cmds) == Ok(s)
    decreases |cmds|
  {
    if cmds != [] {
      assert Inert(cmds[0]);
      assert Step(s, cmds[0]) == Ok(s);
      InertKeepsState(s, cmds[1..]);
    }
  }

  /** Number of times a call occurs in a sequence. */
  function Count(cmds: seq<Command>, c: Command): (n: nat)
    ensures n <= |cmds|
    ensures n == 0 <==> c !in cmds
  {
    if cmds == [] then 0
    else (if cmds[0] == c then 1 else 0) + Count(cmds[1..], c)
  }
}

=== FILE: config.dfy ===
/** Constants and initial member values declared in DXRTRenderer.h. */
module Config {

  /** Number of swap-chain back buffers; sizes `renderTargets` and `rtvHandles`. */
  const FrameCount: nat := 2

  /** Bytes per RGBA8 pixel, the stride of both the readback copy and the PPM writer. */
  const RgbaChannels: nat := 4

  /** Channels the PPM writer emits per pixel: all but alpha. */
  const PpmChannels: nat := RgbaChannels - 1

  /** 2^32: `UINT` arithmetic wraps modulo this. */
  const U32: nat := 0x1_0000_0000

  /** 2^64: `UINT64` arithmetic wraps modulo this. */
  const U64: nat := 0x1_0000_0000_0000_0000

  /** Initial `renderFramefenceValue`, the first value the frame fence is signalled with. */
  const InitialFenceValue: nat := 1

  /** Initial `swapChainFrameIdx`. */
  const InitialSwapChainFrameIdx: nat := 0

  /** Initial `frameIdx`. */
  const InitialFrameIdx: int := 1

  /** An 8-bit unsigned value, as read from the mapped readback buffer. */
  type Byte = x: nat | x < 256
}

=== FILE: decimal.dfy ===
/** Decimal text of unsigned integers, as `std::ostream << n` writes it for
    the image size and for each channel value: no sign, no leading zeros,
    "0" for zero. */
module Decimal {
  import opened Wrappers

  predicate IsDigit(c: char)
  {
    '0' <= c <= '9'
  }

  predicate AllDigits(s: string)
  {
    forall i | 0 <= i < |s| :: IsDigit(s[i])
  }

  /** Text the writer can produce: non-empty digits, and a leading zero only
      in "0" itself. */
  predicate Canonical(s: string)
  {
    |s| >= 1 && AllDigits(s) && (s[0] == '0' ==> |s| == 1)
  }

  function DigitChar(d: nat): (c: char)
    requires d < 10
    ensures IsDigit(c)
  {
    ('0' as int + d) as char
  }

  function DigitValue(c: char): (d: nat)
    requires IsDigit(c)
    ensures d < 10
    ensures DigitChar(d) == c
  {
    (c as int - '0' as int) as nat
  }

  /** The decimal text of `n`. */
  function Dec(n: nat): (s: string)
    ensures Canonical(s)
    ensures s[0] == '0' <==> n == 0
    ensures |s| == 1 <==> n < 10
  {
    if n < 10 then [DigitChar(n)] else Dec(n / 10) + [DigitChar(n % 10)]
  }

  /** The number a string of digits denotes. */
  function Value(s: string): nat
    requires AllDigits(s)
  {
    if s == [] then 0 else 10 * Value(s[..|s| - 1]) + DigitValue(s[|s| - 1])
  }

  /** Reading a decimal: canonical text only. */
  function Parse(s: string): (r: Option<nat>)
  {
    if Canonical(s) then Some(Value(s)) else None
  }

  /** Reading back what `Dec` writes gives the number written. */
  lemma {:induction false} ValueOfDec(n: nat)
    ensures Value(Dec(n)) == n
    decreases n
  {
    if n >= 10 {
      ValueOfDec(n / 10);
      var s := Dec(n);
      assert s[..|s| - 1] == Dec(n / 10);
    }
  }

  /** A canonical string denotes at least 1 unless it is "0". */
  lemma {:induction false} CanonicalPositive(s: string)
    requires Canonical(s) && s[0] != '0'
    ensures Value(s) >= 1
    decreases |s|
  {
    if |s| > 1 {
      var p := s[..|s| - 1];
      assert p[0] == s[0];
      CanonicalPositive(p);
    } else {
      assert DigitValue(s[0]) != 0;
    }
  }

  /** Every canonical string is the decimal text of the number it denotes. */
  lemma {:induction false} DecOfValue(s: string)
    requires Canonical(s)
    ensures Dec(Value(s)) == s
    decreases |s|
  {
    if |s| > 1 {
      var p := s[..|s| - 1];
      assert p[0] == s[0];
      CanonicalPositive(p);
      DecOfValue(p);
      var d := DigitValue(s[|s| - 1]);
      assert Value(s) / 10 == Value(p) && Value(s) % 10 == d;
      assert s == p + [s[|s| - 1]];
    } else {
      assert s == [s[0]];
    }
  }

  /** `Parse` and `Dec` are inverse: a string parses to `n` exactly when it is
      the decimal text of `n`. */
  lemma ParseDec(s: string, n: nat)
    ensures Parse(s) == Some(n) <==> s == Dec(n)
  {
    if s == Dec(n) {
      ValueOfDec(n);
    }
    if Parse(s) == Some(n) {
      DecOfValue(s);
    }
  }

  /** Different numbers have different decimal texts. */
  lemma DecInjective(m: nat, n: nat)
    requires Dec(m) == Dec(n)
    ensures m == n
  {
    ValueOfDec(m);
    ValueOfDec(n);
  }
}

=== FILE: fences.dfy ===
/** The frame fence (`renderFramefence`) as the CPU sees it. */
module Fences {
  import opened Wrappers
  import opened Config
  import opened Gpu

  /** `target` is `renderFramefenceValue`, the value the next Signal writes;
      `signaled` is the last value queued by Signal; `completed` is the GPU's
      completed value as last observed by the CPU. */
  datatype Fence = Fence(target: nat, signaled: nat, completed: nat)

  /** The result of a wait: the fence afterwards, and whether the CPU blocked. */
  datatype Waited = Waited(fence: Fence, blocked: bool)

  /** createFence: the GPU value starts at 0 and `renderFramefenceValue` at 1. */
  function Created(): (f: Fence)
    ensures f.completed == f.signaled < f.target == InitialFenceValue
  {
    Fence(InitialFenceValue, 0, 0)
  }

  /** A reading of GetCompletedValue. The environment supplies `observed`; the
      GPU's value never decreases and never passes the last queued signal, so a
      reading outside that window is brought back into it. */
  function Observe(f: Fence, observed: nat): (c: nat)
    ensures f.completed <= c
    ensures c == f.completed || c <= f.signaled
    ensures f.completed <= observed <= f.signaled ==> c == observed
  {
    if observed <= f.completed then f.completed
    else if observed <= f.signaled then observed
    else if f.signaled <= f.completed then f.completed
    else f.signaled
  }

  /** waitForGPURenderFrame: block on the completion event only when the
      completed value is below the target; the event fires once the GPU
      reaches the target. Waiting for a value that no Signal has queued never
      returns. */
  function Wait(f: Fence, observed: nat): (r: Result<Waited, Fault>)
    ensures r.Err? <==> Observe(f, observed) < f.target && f.signaled < f.target
    ensures r.Err? ==> r.error == WaitNeverSignaled
    ensures r.Ok? ==> r.value.fence.completed >= f.target
    ensures r.Ok? ==> r.value.fence.completed >= f.completed
    ensures r.Ok? ==> r.value.fence.target == f.target && r.value.fence.signaled == f.signaled
    ensures r.Ok? ==> (r.value.blocked <==> Observe(f, observed) < f.target)
    ensures r.Ok? && f.completed <= f.signaled ==> r.value.fence.completed <= f.signaled
  {
    var c := Observe(f, observed);
    if c >= f.target then Ok(Waited(f.(completed := c), false))
    else if f.signaled < f.target then Err(WaitNeverSignaled)
    else Ok(Waited(f.(completed := f.target), true))
  }

  /** `renderFramefenceValue++` on a UINT64. */
  function Advance(f: Fence): (g: Fence)
    ensures g.target < U64
    ensures f.target + 1 < U64 ==> g.target == f.target + 1
    ensures f.target + 1 == U64 ==> g.target == 0
    ensures g.signaled == f.signaled && g.completed == f.completed
  {
    f.(target := (f.target + 1) % U64)
  }
}

=== FILE: frames.dfy ===
/** DXRTRenderer's frame loop: setup, frameBegin, frameEnd, renderFrame,
    renderFrameWithSwapChain and recordExecuteAndReadback, as call sequences
    run through the checked command model. */
module Frames {
  import opened Wrappers
  import opened Config
  import opened Gpu
  import opened Fences
  import opened Commands

  /** createCommandsManagers: the freshly created list is closed at once, so the
      allocator can be reset by the first frameBegin. */
  const CreateCommandsManagersCommands: seq<Command> := [CloseList]

  /** The calls of prepareForRendering that touch tracked state:
      createCommandsManagers, createFence, createSwapChain. */
  const PrepareCommands: seq<Command> := CreateCommandsManagersCommands + [CreateFence, CreateSwapChain]

  function PrepareForRendering(): Result<Renderer, Fault>
  {
    Run(Boot(), PrepareCommands)
  }

  /** frameBegin: reset allocator and list, take the current back buffer from
      present to render target, bind and clear it. */
  const FrameBeginCommands: seq<Command> := [
    ResetAllocator,
    ResetList,
    Barrier(SwapChainBuffer, Present, RenderTarget),
    Record(SetRenderTargets),
    Record(ClearRenderTarget)
  ]

  /** The body of renderFrame between frameBegin and frameEnd. */
  const DrawTriangleCommands: seq<Command> := [
    Record(SetPipelineState),
    Record(SetRootSignature),
    Record(SetPrimitiveTopology),
    Record(SetVertexBuffers),
    Record(SetViewports),
    Record(SetScissorRects),
    Record(DrawInstanced(3, 1))
  ]

  /** frameEnd: back buffer to present, close, execute, signal, present, wait,
      then advance the fence value, the frame counter and the back-buffer index.
      `observed` is the GPU's completed value when the wait reads it. */
  function FrameEndCommands(observed: nat): seq<Command>
  {
    [ Barrier(SwapChainBuffer, RenderTarget, Present),
      CloseList,
      ExecuteList,
      SignalFence,
      PresentFrame,
      WaitForGpu(observed),
      AdvanceFenceValue,
      AdvanceFrameIdx,
      SyncBackBufferIndex ]
  }

  function FrameBegin(s: Renderer): Result<Renderer, Fault>
  {
    Run(s, FrameBeginCommands)
  }

  function FrameEnd(s: Renderer, observed: nat): Result<Renderer, Fault>
  {
    Run(s, FrameEndCommands(observed))
  }

  /** renderFrame: frameBegin, draw the triangle, frameEnd. */
  function RenderFrame(s: Renderer, observed: nat): Result<Renderer, Fault>
  {
    var b :- FrameBegin(s);
    var d :- Run(b, DrawTriangleCommands);
    FrameEnd(d, observed)
  }

  /** The state between frames: list closed, every back buffer presentable,
      the renderer's index agrees with the swap chain's, the allocator is idle
      (the GPU has reached the last signal), and the next signal value is one
      more than the last. */
  ghost predicate Ready(s: Renderer)
  {
    && s.list == Closed
    && s.backBuffers == seq(FrameCount, _ => Present)
    && s.swapChainFrameIdx == s.presentIndex < FrameCount
    && s.fence.Some?
    && s.fence.value.completed == s.fence.value.signaled
    && s.fence.value.signaled + 1 == s.fence.value.target
    && s.fence.value.target < U64
  }

  lemma FrameBeginOpens(s: Renderer)
    requires Ready(s)
    ensures FrameBegin(s) == Ok(s.(list := Recording, backBuffers := s.backBuffers[s.swapChainFrameIdx := RenderTarget]))
  {
    var c := FrameBeginCommands;
    var s2 := s.(list := Recording);
    var s3 := s2.(backBuffers := s.backBuffers[s.swapChainFrameIdx := RenderTarget]);
    assert Run(s, c) == Run(s, c[1..]);
    assert Run(s, c[1..]) == Run(s2, c[2..]);
    assert Run(s2, c[2..]) == Run(s3, c[3..]);
    assert Run(s3, c[3..]) == Run(s3, c[4..]);
    assert Run(s3, c[4..]) == Run(s3, c[5..]);
  }

  lemma DrawKeepsState(b: Renderer)
    requires b.list == Recording
    ensures Run(b, DrawTriangleCommands) == Ok(b)
  {
    InertKeepsState(b, DrawTriangleCommands);
  }

  /** The first four calls of frameEnd from the state frameBegin leaves. */
  lemma FrameEndSubmits(s: Renderer, observed: nat)
    requires Ready(s)
    ensures var t := s.fence.value.target;
            Run(s.(list := Recording, backBuffers := s.backBuffers[s.swapChainFrameIdx := RenderTarget]), FrameEndCommands(observed))
            == Run(s.(fence := Some(s.fence.value.(signaled := t)), signals := s.signals + [t]), FrameEndCommands(observed)[4..])
  {
    FrameEndClosesList(s, observed);
    FrameEndSignals(s, observed);
  }

  /** Back to present, and close the list. */
  lemma FrameEndClosesList(s: Renderer, observed: nat)
    requires Ready(s)
    ensures Run(s.(list := Recording, backBuffers := s.backBuffers[s.swapChainFrameIdx := RenderTarget]), FrameEndCommands(observed))
            == Run(s, FrameEndCommands(observed)[2..])
  {
    var c := FrameEndCommands(observed);
    var idx := s.swapChainFrameIdx;
    var b := s.(list := Recording, backBuffers := s.backBuffers[idx := RenderTarget]);
    var s1 := s.(list := Recording);
    assert b.backBuffers[idx := Present] == s.backBuffers;
    assert Run(b, c) == Run(s1, c[1..]);
    assert Run(s1, c[1..]) == Run(s, c[2..]);
  }

  /** Execute, and signal the current fence value. */
  lemma FrameEndSignals(s: Renderer, observed: nat)
    requires Ready(s)
    ensures var t := s.fence.value.target;
            Run(s, FrameEndCommands(observed)[2..])
            == Run(s.(fence := Some(s.fence.value.(signaled := t)), signals := s.signals + [t]), FrameEndCommands(observed)[4..])
  {
    var c := FrameEndCommands(observed);
    assert Run(s, c[2..]) == Run(s, c[3..]);
  }

  /** The last five calls of frameEnd, after the signal. */
  lemma FrameEndWaits(s: Renderer, observed: nat)
    requires Ready(s)
    ensures var t := s.fence.value.target;
            var next := (s.swapChainFrameIdx + 1) % FrameCount;
            Run(s.(fence := Some(s.fence.value.(signaled := t)), signals := s.signals + [t]), FrameEndCommands(observed)[4..])
            == Ok(s.(fence := Some(Fence((t + 1) % U64, t, t)),
                     signals := s.signals + [t],
                     presentIndex := next,
                     swapChainFrameIdx := next,
                     frameIdx := s.frameIdx + 1))
  {
    FrameEndPresentsAndWaits(s, observed);
    FrameEndAdvances(s, observed);
  }

  /** Present and wait: the swap chain moves on, and the wait on the value just
      signalled leaves it completed. */
  lemma FrameEndPresentsAndWaits(s: Renderer, observed: nat)
    requires Ready(s)
    ensures var t := s.fence.value.target;
            var next := (s.swapChainFrameIdx + 1) % FrameCount;
            Run(s.(fence := Some(s.fence.value.(signaled := t)), signals := s.signals + [t]), FrameEndCommands(observed)[4..])
            == Run(s.(fence := Some(Fence(t, t, t)), signals := s.signals + [t], presentIndex := next),
                   FrameEndCommands(observed)[6..])
  {
    var c := FrameEndCommands(observed);
    var t := s.fence.value.target;
    var s4 := s.(fence := Some(s.fence.value.(signaled := t)), signals := s.signals + [t]);
    var s5 := s4.(presentIndex := (s.swapChainFrameIdx + 1) % FrameCount);
    assert Run(s4, c[4..]) == Run(s5, c[5..]);
    assert Run(s5, c[5..]) == Run(s5.(fence := Some(Fence(t, t, t))), c[6..]);
  }

  /** The fence value, the frame counter and the back-buffer index advance. */
  lemma FrameEndAdvances(s: Renderer, observed: nat)
    requires Ready(s)
    ensures var t := s.fence.value.target;
            var next := (s.swapChainFrameIdx + 1) % FrameCount;
            Run(s.(fence := Some(Fence(t, t, t)), signals := s.signals + [t], presentIndex := next),
                FrameEndCommands(observed)[6..])
            == Ok(s.(fence := Some(Fence((t + 1) % U64, t, t)),
                     signals := s.signals + [t],
                     presentIndex := next,
                     swapChainFrameIdx := next,
                     frameIdx := s.frameIdx + 1))
  {
    var c := FrameEndCommands(observed);
    var t := s.fence.value.target;
    var next := (s.swapChainFrameIdx + 1) % FrameCount;
    var s6 := s.(fence := Some(Fence(t, t, t)), signals := s.signals + [t], presentIndex := next);
    var s7 := s6.(fence := Some(Fence((t + 1) % U64, t, t)));
    assert Run(s6, c[6..]) == Run(s7, c[7..]);
    var s8 := s7.(frameIdx := s.frameIdx + 1);
    assert Run(s7, c[7..]) == Run(s8, c[8..]);
    assert Run(s8, c[8..]) == Run(s8.(swapChainFrameIdx := next), c[9..]);
  }

  /** The state one renderFrame leads to from a ready state: the fence value
      just used is now both signalled and completed, the next one is queued,
      the frame counter and the back-buffer index have advanced, and nothing
      else has changed. */
  function AfterFrame(s: Renderer): Renderer
    requires Ready(s)
  {
    var t := s.fence.value.target;
    var next := (s.swapChainFrameIdx + 1) % FrameCount;
    s.(fence := Some(Fence((t + 1) % U64, t, t)),
       signals := s.signals + [t],
       presentIndex := next,
       swapChainFrameIdx := next,
       frameIdx := s.frameIdx + 1)
  }

  /** frameEnd takes the state frameBegin left back to a closed list with the
      buffer presentable, signals the current value, waits on that same value,
      and only then advances it. */
  lemma FrameEndCloses(s: Renderer, observed: nat)
    requires Ready(s)
    ensures FrameEnd(s.(list := Recording, backBuffers := s.backBuffers[s.swapChainFrameIdx := RenderTarget]), observed)
            == Ok(AfterFrame(s))
  {
    FrameEndSubmits(s, observed);
    FrameEndWaits(s, observed);
  }

  /** frameBegin needs a closed list: on an open one the allocator reset fails. */
  lemma FrameBeginNeedsClosedList(s: Renderer)
    requires s.list == Recording
    ensures FrameBegin(s) == Err(ListNotClosed)
  {
    assert Step(s, FrameBeginCommands[0]) == Err(ListNotClosed);
  }

  /** renderFrame from a ready state: frameBegin, the draw and frameEnd all
      succeed, so every barrier's before-state matched the tracked state. */
  lemma RenderFrameEffect(s: Renderer, observed: nat)
    requires Ready(s)
    ensures RenderFrame(s, observed) == Ok(AfterFrame(s))
  {
    FrameBeginOpens(s);
    var b := s.(list := Recording, backBuffers := s.backBuffers[s.swapChainFrameIdx := RenderTarget]);
    DrawKeepsState(b);
    FrameEndCloses(s, observed);
  }

  /** renderFrame is a closed cycle: each back buffer is presentable again
      afterwards, the list is closed again, and the fence value goes up by
      exactly one. */
  lemma RenderFrameCycle(s: Renderer, observed: nat)
    requires Ready(s)
    requires s.fence.value.target + 1 < U64
    ensures RenderFrame(s, observed) == Ok(AfterFrame(s))
    ensures var r := AfterFrame(s);
            && Ready(r)
            && r.backBuffers == s.backBuffers
            && r.list == s.list
            && r.fence.value.target == s.fence.value.target + 1
            && r.signals == s.signals + [s.fence.value.target]
            && r.frameIdx == s.frameIdx + 1
            && r.swapChainFrameIdx == (s.swapChainFrameIdx + 1) % FrameCount
            && r.offscreen == s.offscreen
  {
    RenderFrameEffect(s, observed);
    AfterFrameReady(s);
  }

  lemma AfterFrameReady(s: Renderer)
    requires Ready(s)
    requires s.fence.value.target + 1 < U64
    ensures var r := AfterFrame(s);
            && Ready(r)
            && r.backBuffers == s.backBuffers
            && r.list == s.list
            && r.fence.value.target == s.fence.value.target + 1
            && r.signals == s.signals + [s.fence.value.target]
            && r.frameIdx == s.frameIdx + 1
            && r.swapChainFrameIdx == (s.swapChainFrameIdx + 1) % FrameCount
            && r.offscreen == s.offscreen
  {
    var t := s.fence.value.target;
    assert (t + 1) % U64 == t + 1;
  }

  lemma AfterFrameWraps(s: Renderer)
    requires Ready(s)
    requires s.fence.value.target + 1 == U64
    ensures AfterFrame(s).fence.value.target == 0
    ensures !Ready(AfterFrame(s))
  {
  }

  /** The fence value is a UINT64: the frame that signals 2^64 - 1 leaves the
      next value at 0, below everything already signalled. */
  lemma FenceValueWraps(s: Renderer, observed: nat)
    requires Ready(s)
    requires s.fence.value.target + 1 == U64
    ensures RenderFrame(s, observed) == Ok(AfterFrame(s))
    ensures AfterFrame(s).fence.value.target == 0
    ensures !Ready(AfterFrame(s))
  {
    RenderFrameEffect(s, observed);
    AfterFrameWraps(s);
  }

  /** prepareForRendering leaves the renderer ready for its first frame with
      the header's initial values: fence value 1, back buffer 0, frame 1. */
  lemma PrepareForRenderingReady()
    ensures PrepareForRendering().Ok?
    ensures var s := PrepareForRendering().value;
            && Ready(s)
            && s.list == Closed
            && s.fence.value.target == InitialFenceValue
            && s.swapChainFrameIdx == InitialSwapChainFrameIdx
            && s.frameIdx == InitialFrameIdx
            && s.signals == []
  {
    var c := PrepareCommands;
    var s1 := Boot().(list := Closed);
    var s2 := s1.(fence := Some(Fences.Created()));
    var s3 := s2.(backBuffers := seq(FrameCount, _ => Present), presentIndex := 0);
    assert Run(Boot(), c) == Run(s1, c[1..]);
    assert Run(s1, c[1..]) == Run(s2, c[2..]);
    assert Run(s2, c[2..]) == Run(s3, c[3..]);
  }

  /** A sequence of renderFrame calls, one GPU observation per frame. */
  function RenderFrames(s: Renderer, observations: seq<nat>): Result<Renderer, Fault>
    decreases |observations|
  {
    if observations == [] then Ok(s)
    else
      var t :- RenderFrame(s, observations[0]);
      RenderFrames(t, observations[1..])
  }

  /** What n frames from a ready state `s` promise of the state `r` they
      reach: still ready, back buffers untouched, the fence value n higher,
      the n values from the old fence value on signalled in order, the frame
      counter n higher, and the back-buffer index n steps further round. */
  ghost predicate AfterFrames(s: Renderer, n: nat, r: Renderer)
    requires Ready(s)
  {
    var t := s.fence.value.target;
    && Ready(r)
    && r.backBuffers == s.backBuffers
    && r.fence.value.target == t + n
    && r.signals == s.signals + seq(n, i => t + i)
    && r.frameIdx == s.frameIdx + n
    && r.swapChainFrameIdx == (s.swapChainFrameIdx + n) % FrameCount
  }

  lemma AfterFramesStep(s: Renderer, n: nat, r: Renderer)
    requires Ready(s)
    requires s.fence.value.target + 1 < U64
    requires Ready(AfterFrame(s))
    requires AfterFrames(AfterFrame(s), n, r)
    ensures AfterFrames(s, n + 1, r)
  {
    AfterFrameReady(s);
    var t0 := s.fence.value.target;
    assert r.signals == s.signals + seq(n + 1, i => t0 + i) by {
      assert r.signals == s.signals + [t0] + seq(n, i => t0 + 1 + i);
      assert [t0] + seq(n, i => t0 + 1 + i) == seq(n + 1, i => t0 + i);
    }
  }

  /** Over any run of frames that keeps the fence value below 2^64 every frame
      succeeds, and the signalled values are consecutive, one per frame. */
  lemma {:induction false} FramesFrom(s: Renderer, observations: seq<nat>)
    requires Ready(s)
    requires s.fence.value.target + |observations| < U64
    ensures RenderFrames(s, observations).Ok?
    ensures AfterFrames(s, |observations|, RenderFrames(s, observations).value)
    decreases |observations|
  {
    var n := |observations|;
    if n == 0 {
      assert s.signals + seq(0, i => s.fence.value.target + i) == s.signals;
    } else {
      RenderFrameCycle(s, observations[0]);
      var t := AfterFrame(s);
      FramesFrom(t, observations[1..]);
      assert RenderFrames(s, observations) == RenderFrames(t, observations[1..]);
      AfterFramesStep(s, n - 1, RenderFrames(t, observations[1..]).value);
    }
  }

  /** From start-up, after n frames the fence value is n + 1 (so never 0 while
      n + 1 < 2^64), the values 1..n have been signalled in order, and the
      frame counter has kept step with the fence. */
  lemma FramesFromStart(s: Renderer, observations: seq<nat>)
    requires PrepareForRendering() == Ok(s)
    requires |observations| + 1 < U64
    ensures RenderFrames(s, observations).Ok?
    ensures var r := RenderFrames(s, observations).value;
            && Ready(r)
            && r.fence.value.target == |observations| + 1
            && r.signals == seq(|observations|, i => i + 1)
            && r.frameIdx == r.fence.value.target
            && r.swapChainFrameIdx == |observations| % FrameCount
  {
    PrepareForRenderingReady();
    FramesFrom(s, observations);
    var r := RenderFrames(s, observations).value;
    assert r.signals == seq(|observations|, i => i + 1);
  }

  // ---------------------------------------------------------------------
  // renderFrameWithSwapChain

  /** The calls renderFrameWithSwapChain makes between its frameBegin and its
      frameEnd: a second present-to-render-target barrier, bind and clear, a
      render-target-to-present barrier, close, execute, signal, present, wait. */
  function SwapChainBodyCommands(observed: nat): seq<Command>
  {
    [ Barrier(SwapChainBuffer, Present, RenderTarget),
      Record(SetRenderTargets),
      Record(ClearRenderTarget),
      Barrier(SwapChainBuffer, RenderTarget, Present),
      CloseList,
      ExecuteList,
      SignalFence,
      PresentFrame,
      WaitForGpu(observed) ]
  }

  function RenderFrameWithSwapChain(s: Renderer, bodyObserved: nat, endObserved: nat): Result<Renderer, Fault>
  {
    var b :- FrameBegin(s);
    var m :- Run(b, SwapChainBodyCommands(bodyObserved));
    FrameEnd(m, endObserved)
  }

  /** renderFrameWithSwapChain fails from every ready state: frameBegin has
      already moved the buffer to render target, so the barrier that claims it
      is still present does not match. */
  lemma SwapChainFrameFails(s: Renderer, bodyObserved: nat, endObserved: nat)
    requires Ready(s)
    ensures RenderFrameWithSwapChain(s, bodyObserved, endObserved) == Err(BarrierMismatch(RenderTarget, Present))
  {
    FrameBeginOpens(s);
  }

  /** The body of renderFrameWithSwapChain without its redundant first barrier,
      run from the state frameBegin leaves: the buffer goes back to present,
      the list is closed, the current fence value is signalled and waited for,
      and the swap chain moves on while `swapChainFrameIdx` does not. */
  lemma SwapChainBodyEffect(s: Renderer, observed: nat)
    requires Ready(s)
    ensures var t := s.fence.value.target;
            Run(s.(list := Recording, backBuffers := s.backBuffers[s.swapChainFrameIdx := RenderTarget]),
                SwapChainBodyCommands(observed)[1..])
            == Ok(s.(fence := Some(Fence(t, t, t)), signals := s.signals + [t],
                     presentIndex := (s.swapChainFrameIdx + 1) % FrameCount))
  {
    SwapChainBodyRecords(s, observed);
    SwapChainBodySubmits(s, observed);
  }

  lemma SwapChainBodyRecords(s: Renderer, observed: nat)
    requires Ready(s)
    ensures Run(s.(list := Recording, backBuffers := s.backBuffers[s.swapChainFrameIdx := RenderTarget]),
                SwapChainBodyCommands(observed)[1..])
            == Run(s, SwapChainBodyCommands(observed)[5..])
  {
    SwapChainBodyClears(s, observed);
    SwapChainBodyCloses(s, observed);
  }

  /** Bind and clear the buffer frameBegin moved to render target. */
  lemma SwapChainBodyClears(s: Renderer, observed: nat)
    requires Ready(s)
    ensures var b := s.(list := Recording, backBuffers := s.backBuffers[s.swapChainFrameIdx := RenderTarget]);
            Run(b, SwapChainBodyCommands(observed)[1..]) == Run(b, SwapChainBodyCommands(observed)[3..])
  {
    var c := SwapChainBodyCommands(observed);
    var b := s.(list := Recording, backBuffers := s.backBuffers[s.swapChainFrameIdx := RenderTarget]);
    assert Run(b, c[1..]) == Run(b, c[2..]);
    assert Run(b, c[2..]) == Run(b, c[3..]);
  }

  /** Back to present, and close the list. */
  lemma SwapChainBodyCloses(s: Renderer, observed: nat)
    requires Ready(s)
    ensures var b := s.(list := Recording, backBuffers := s.backBuffers[s.swapChainFrameIdx := RenderTarget]);
            Run(b, SwapChainBodyCommands(observed)[3..]) == Run(s, SwapChainBodyCommands(observed)[5..])
  {
    var idx := s.swapChainFrameIdx;
    var c := SwapChainBodyCommands(observed);
    var b := s.(list := Recording, backBuffers := s.backBuffers[idx := RenderTarget]);
    var b1 := s.(list := Recording);
    assert b.backBuffers[idx := Present] == s.backBuffers;
    assert Run(b, c[3..]) == Run(b1, c[4..]);
    assert Run(b1, c[4..]) == Run(s, c[5..]);
  }

  lemma SwapChainBodySubmits(s: Renderer, observed: nat)
    requires Ready(s)
    ensures var t := s.fence.value.target;
            Run(s, SwapChainBodyCommands(observed)[5..])
            == Ok(s.(fence := Some(Fence(t, t, t)), signals := s.signals + [t],
                     presentIndex := (s.swapChainFrameIdx + 1) % FrameCount))
  {
    SwapChainBodySignals(s, observed);
    SwapChainBodyPresents(s, observed);
  }

  /** Execute and signal the current fence value. */
  lemma SwapChainBodySignals(s: Renderer, observed: nat)
    requires Ready(s)
    ensures var t := s.fence.value.target;
            Run(s, SwapChainBodyCommands(observed)[5..])
            == Run(s.(fence := Some(s.fence.value.(signaled := t)), signals := s.signals + [t]),
                   SwapChainBodyCommands(observed)[7..])
  {
    var t := s.fence.value.target;
    var c := SwapChainBodyCommands(observed);
    assert Run(s, c[5..]) == Run(s, c[6..]);
    assert Run(s, c[6..]) == Run(s.(fence := Some(s.fence.value.(signaled := t)), signals := s.signals + [t]), c[7..]);
  }

  /** Present, then wait for the value just signalled. */
  lemma SwapChainBodyPresents(s: Renderer, observed: nat)
    requires Ready(s)
    ensures var t := s.fence.value.target;
            Run(s.(fence := Some(s.fence.value.(signaled := t)), signals := s.signals + [t]),
                SwapChainBodyCommands(observed)[7..])
            == Ok(s.(fence := Some(Fence(t, t, t)), signals := s.signals + [t],
                     presentIndex := (s.swapChainFrameIdx + 1) % FrameCount))
  {
    var t := s.fence.value.target;
    var c := SwapChainBodyCommands(observed);
    var s4 := s.(fence := Some(s.fence.value.(signaled := t)), signals := s.signals + [t]);
    var s5 := s4.(presentIndex := (s.swapChainFrameIdx + 1) % FrameCount);
    assert Run(s4, c[7..]) == Run(s5, c[8..]);
    assert Run(s5, c[8..]) == Run(s5.(fence := Some(Fence(t, t, t))), c[9..]);
  }

  /** Even without that barrier, the body closes the list and returns the
      buffer to present, so frameEnd's first barrier is recorded into a closed
      list and claims a render-target state the buffer no longer has, and
      frameEnd's close is a second close. */
  lemma SwapChainFrameEndFails(s: Renderer, bodyObserved: nat, endObserved: nat)
    requires Ready(s)
    ensures var m := Run(FrameBegin(s).value, SwapChainBodyCommands(bodyObserved)[1..]);
            && m.Ok?
            && m.value.list == Closed
            && Tracked(m.value, SwapChainBuffer) == Ok(Present)
            && FrameEndCommands(endObserved)[0].before == RenderTarget
            && Step(m.value, CloseList) == Err(ListNotRecording)
            && FrameEnd(m.value, endObserved) == Err(ListNotRecording)
            && Step(m.value.(list := Recording), FrameEndCommands(endObserved)[0])
               == Err(BarrierMismatch(Present, RenderTarget))
  {
    FrameBeginOpens(s);
    SwapChainBodyEffect(s, bodyObserved);
  }

  /** The body signals the current fence value and frameEnd signals it again
      before anything advances it: two signals of one value in one frame. */
  lemma SwapChainSignalsTwice(bodyObserved: nat, endObserved: nat)
    ensures var cmds := SwapChainBodyCommands(bodyObserved) + FrameEndCommands(endObserved);
            exists i, j :: 0 <= i < j < |cmds| && cmds[i] == SignalFence && cmds[j] == SignalFence
                           && AdvanceFenceValue !in cmds[i..j]
  {
    var cmds := SwapChainBodyCommands(bodyObserved) + FrameEndCommands(endObserved);
    assert cmds[6] == SignalFence && cmds[12] == SignalFence;
    assert AdvanceFenceValue !in cmds[6..12];
  }

  // ---------------------------------------------------------------------
  // Release builds

  /** frameBegin in a build where NDEBUG removes `assert`: both Reset calls are
      written inside the assert and disappear with it. */
  const ReleaseFrameBeginCommands: seq<Command> := FrameBeginCommands[2..]

  function ReleaseRenderFrame(s: Renderer, observed: nat): Result<Renderer, Fault>
  {
    var b :- Run(s, ReleaseFrameBeginCommands);
    var d :- Run(b, DrawTriangleCommands);
    FrameEnd(d, observed)
  }

  /** Without the resets the list is still closed when frameBegin records its
      barrier, so no frame can be rendered. */
  lemma ReleaseBuildFrameFails(s: Renderer, observed: nat)
    requires Ready(s)
    ensures ReleaseRenderFrame(s, observed) == Err(ListNotRecording)
  {
    assert ReleaseFrameBeginCommands[0] == Barrier(SwapChainBuffer, Present, RenderTarget);
  }

  // ---------------------------------------------------------------------
  // recordExecuteAndReadback

  /** recordExecuteAndReadback: render target to copy source, copy into the
      readback buffer, swap the barrier's states to go back, then close,
      execute and signal. */
  const RecordExecuteAndReadbackCommands: seq<Command> := [
    Barrier(Offscreen, RenderTarget, CopySource),
    Record(CopyToReadback),
    Barrier(Offscreen, CopySource, RenderTarget),
    CloseList,
    ExecuteList,
    SignalFence
  ]

  function RecordExecuteAndReadback(s: Renderer): Result<Renderer, Fault>
  {
    Run(s, RecordExecuteAndReadbackCommands)
  }

  /** The readback succeeds exactly when the list is open, the texture is in
      the render-target state and the fence exists; it then leaves the texture
      in the state it found it, closes the list and signals the current value.
      Without a fence it fails at the signal. */
  lemma ReadbackRestoresState(s: Renderer)
    ensures RecordExecuteAndReadback(s).Ok?
            <==> s.list == Recording && s.offscreen == Some(RenderTarget) && s.fence.Some?
    ensures RecordExecuteAndReadback(s).Ok? ==>
              var f := s.fence.value;
              RecordExecuteAndReadback(s).value
              == s.(list := Closed, fence := Some(f.(signaled := f.target)), signals := s.signals + [f.target])
    ensures s.list == Recording && s.offscreen == Some(RenderTarget) && s.fence.None? ==>
              RecordExecuteAndReadback(s) == Err(FenceNotCreated)
  {
    var c := RecordExecuteAndReadbackCommands;
    if s.list == Recording && s.offscreen == Some(RenderTarget) {
      ReadbackCopies(s);
      ReadbackSubmits(s);
    } else {
      assert Step(s, c[0]).Err?;
    }
  }

  /** The barrier pair around the copy leaves the texture as it was. */
  lemma ReadbackCopies(s: Renderer)
    requires s.list == Recording && s.offscreen == Some(RenderTarget)
    ensures Run(s, RecordExecuteAndReadbackCommands) == Run(s, RecordExecuteAndReadbackCommands[3..])
  {
    var c := RecordExecuteAndReadbackCommands;
    var s1 := s.(offscreen := Some(CopySource));
    assert Run(s, c) == Run(s1, c[1..]);
    assert Run(s1, c[1..]) == Run(s1, c[2..]);
    assert Run(s1, c[2..]) == Run(s, c[3..]);
  }

  /** Close, execute and signal: the signal needs the fence. */
  lemma ReadbackSubmits(s: Renderer)
    requires s.list == Recording
    ensures s.fence.Some? ==>
              var f := s.fence.value;
              Run(s, RecordExecuteAndReadbackCommands[3..])
              == Ok(s.(list := Closed, fence := Some(f.(signaled := f.target)), signals := s.signals + [f.target]))
    ensures s.fence.None? ==> Run(s, RecordExecuteAndReadbackCommands[3..]) == Err(FenceNotCreated)
  {
    var c := RecordExecuteAndReadbackCommands;
    var s3 := s.(list := Closed);
    assert Run(s, c[3..]) == Run(s3, c[4..]);
    assert Run(s3, c[4..]) == Run(s3, c[5..]);
    if s.fence.Some? {
      var f := s.fence.value;
      assert Run(s3, c[5..]) == Run(s3.(fence := Some(f.(signaled := f.target)), signals := s.signals + [f.target]), c[6..]);
    } else {
      assert Run(s3, c[5..]) == Err(FenceNotCreated);
    }
  }
}

=== FILE: gpu.dfy ===
/** The part of the Direct3D 12 object model the renderer's logic depends on:
    command-list and resource states, and the ways a call can fail. */
module Gpu {

  /** A graphics command list is either open for recording or closed. */
  datatype ListState = Closed | Recording

  /** The D3D12_RESOURCE_STATE values the renderer uses. */
  datatype ResourceState = Present | RenderTarget | CopySource | CopyDest

  /** Why a call fails. In the source each of these ends in a failed `assert`,
      a debug-layer error, or a CPU that never wakes up. */
  datatype Fault =
    | ListNotRecording   // recording into, or closing, a closed command list
    | ListNotClosed      // resetting or executing a command list that is still recording
    | AllocatorInUse     // resetting the allocator while the GPU may still read its commands
    | BarrierMismatch(tracked: ResourceState, claimed: ResourceState)
                         // a transition whose StateBefore is not the resource's state
    | WrongState(tracked: ResourceState, required: ResourceState)
                         // clear, copy or present of a resource in another state
    | NoSuchResource     // a back-buffer index out of range, or a resource not created yet
    | FenceNotCreated    // Signal or wait on a fence that does not exist yet
    | WaitNeverSignaled  // waiting for a value no Signal has queued: the CPU stalls forever
    | NoAdapter          // the adapter enumeration is empty
    | NoHardwareAdapter  // no adapter qualifies for selection
    | DeviceCreationFailed // D3D12CreateDevice failed on the chosen adapter
}

=== FILE: legacy.dfy ===
/** CDXCRenderer, the older renderer: its setup sequence as call sequences run
    through the same checked command model as DXRTRenderer. */
module Legacy {
  import opened Wrappers
  import opened Config
  import opened Gpu
  import opened Fences
  import opened Commands
  import Frames

  /** createCommandsManagers creates the queue, the allocator and the list and
      does not close the list, which a new list starts out recording into. */
  const CreateCommandsManagersCommands: seq<Command> := []

  /** The second half of createReadbackBuffer: the same barrier pair, copy,
      close, execute and signal as DXRTRenderer's recordExecuteAndReadback. */
  const CreateReadbackBufferCommands: seq<Command> := Frames.RecordExecuteAndReadbackCommands

  /** prepareForRendering as written: createDevice and createRenderTargetView
      touch no tracked state; createGPUTexture makes the texture; the readback
      buffer is created, and its copy submitted and signalled, before
      createFence runs. */
  const PrepareCommands: seq<Command> :=
    CreateCommandsManagersCommands + [CreateOffscreen] + CreateReadbackBufferCommands + [CreateFence]

  function PrepareForRendering(): Result<Renderer, Fault>
  {
    Run(Boot(), PrepareCommands)
  }

  /** The same calls with createFence moved ahead of createReadbackBuffer. */
  const FenceFirstPrepareCommands: seq<Command> :=
    CreateCommandsManagersCommands + [CreateOffscreen, CreateFence] + CreateReadbackBufferCommands

  function FenceFirstPrepareForRendering(): Result<Renderer, Fault>
  {
    Run(Boot(), FenceFirstPrepareCommands)
  }

  /** The older createCommandsManagers leaves the new list recording, while
      DXRTRenderer's closes it. */
  lemma CreationLeavesListOpen()
    ensures Run(Boot(), CreateCommandsManagersCommands) == Ok(Boot())
    ensures Boot().list == Recording
    ensures Run(Boot(), Frames.CreateCommandsManagersCommands) == Ok(Boot().(list := Closed))
  {
    var c := Frames.CreateCommandsManagersCommands;
    assert Run(Boot(), c) == Run(Boot().(list := Closed), c[1..]);
  }

  /** createReadbackBuffer closes the list once. */
  lemma ReadbackClosesOnce()
    ensures Count(CreateReadbackBufferCommands, CloseList) == 1
  {
    var r := CreateReadbackBufferCommands;
    assert Count(r[4..], CloseList) == 0;
    assert Count(r[3..], CloseList) == 1;
    assert Count(r[2..], CloseList) == 1;
    assert Count(r[1..], CloseList) == 1;
  }

  /** Setup closes the list exactly once: at the end of createReadbackBuffer. */
  lemma SetupClosesOnce()
    ensures Count(PrepareCommands, CloseList) == 1
  {
    var r := CreateReadbackBufferCommands;
    assert Count(r + [CreateFence], CloseList) == 1 by {
      ReadbackClosesOnce();
      CountAppend(r, [CreateFence], CloseList);
    }
    assert PrepareCommands == [CreateOffscreen] + (r + [CreateFence]);
    CountAppend([CreateOffscreen], r + [CreateFence], CloseList);
  }

  /** Moving createFence does not change how often the list is closed. */
  lemma FenceFirstClosesOnce()
    ensures Count(FenceFirstPrepareCommands, CloseList) == 1
  {
    var r := CreateReadbackBufferCommands;
    assert Count([CreateOffscreen, CreateFence], CloseList) == 0;
    assert FenceFirstPrepareCommands == [CreateOffscreen, CreateFence] + r;
    assert Count(r, CloseList) == 1 by { ReadbackClosesOnce(); }
    CountAppend([CreateOffscreen, CreateFence], r, CloseList);
  }

  lemma {:induction false} CountAppend(a: seq<Command>, b: seq<Command>, c: Command)
    ensures Count(a + b, c) == Count(a, c) + Count(b, c)
    decreases |a|
  {
    if a == [] {
      assert a + b == b;
    } else {
      assert (a + b)[0] == a[0];
      assert (a + b)[1..] == a[1..] + b;
      CountAppend(a[1..], b, c);
    }
  }

  /** The state createGPUTexture leaves on the freshly created, still open list:
      what createCommandsManagers followed by createGPUTexture reach. */
  function TextureCreated(): (s: Renderer)
    ensures Run(Boot(), CreateCommandsManagersCommands + [CreateOffscreen]) == Ok(s)
    ensures s.list == Recording && s.offscreen == Some(RenderTarget)
  {
    assert CreateCommandsManagersCommands + [CreateOffscreen] == [CreateOffscreen];
    Boot().(offscreen := Some(RenderTarget))
  }

  /** As written, createReadbackBuffer signals `renderFramefence` before
      createFence has created it: an invalid call whose result is not
      checked. The model's run stops at that call (see `Commands.Run`). */
  lemma PrepareAsWrittenFails()
    ensures PrepareForRendering() == Err(FenceNotCreated)
  {
    var p := PrepareCommands;
    var r := CreateReadbackBufferCommands;
    var s1 := TextureCreated();
    assert Run(Boot(), p) == Run(s1, p[1..]);
    assert p[1..] == r + [CreateFence];
    Frames.ReadbackRestoresState(s1);
    RunAppend(s1, r, [CreateFence]);
  }

  /** With the fence created first, setup succeeds: the readback barrier pair
      leaves the texture in the render-target state it was created in, the
      list is closed, and fence value 1 has been signalled once. */
  lemma FenceFirstPrepares()
    ensures FenceFirstPrepareForRendering()
            == Ok(TextureCreated().(list := Closed, fence := Some(Fence(InitialFenceValue, InitialFenceValue, 0)),
                                    signals := [InitialFenceValue]))
  {
    var p := FenceFirstPrepareCommands;
    var s1 := TextureCreated();
    var s2 := s1.(fence := Some(Fences.Created()));
    assert Run(Boot(), p) == Run(s1, p[1..]);
    assert Run(s1, p[1..]) == Run(s2, p[2..]);
    assert p[2..] == CreateReadbackBufferCommands;
    Frames.ReadbackRestoresState(s2);
    assert Run(s2, p[2..]) == Frames.RecordExecuteAndReadback(s2);
    assert s2.signals + [InitialFenceValue] == [InitialFenceValue];
    assert Frames.RecordExecuteAndReadback(s2)
           == Ok(TextureCreated().(list := Closed, fence := Some(Fence(InitialFenceValue, InitialFenceValue, 0)),
                                   signals := [InitialFenceValue]));
  }
}

=== FILE: lines.dfy ===
/** Text cut into fields at a separator character: the PPM text is lines
    separated by '\n', and each line fields separated by ' '. */
module Lines {
  import opened Wrappers

  /** The first position of `c` in `s`. */
  function IndexOf(s: string, c: char): (r: Option<nat>)
    ensures r.None? <==> c !in s
    ensures r.Some? ==> r.value < |s| && s[r.value] == c && c !in s[..r.value]
    decreases |s|
  {
    if s == [] then None
    else if s[0] == c then Some(0)
    else
      match IndexOf(s[1..], c)
      case None => None
      case Some(i) =>
        assert s[..i + 1] == [s[0]] + s[1..][..i];
        Some(i + 1)
  }

  /** The fields, with one separator between neighbours. */
  function Join(parts: seq<string>, sep: char): string
    decreases |parts|
  {
    if parts == [] then ""
    else if |parts| == 1 then parts[0]
    else parts[0] + [sep] + Join(parts[1..], sep)
  }

  /** Cut `s` at every separator; n separators give n + 1 fields. */
  function Split(s: string, sep: char): (parts: seq<string>)
    ensures |parts| >= 1
    ensures forall i | 0 <= i < |parts| :: sep !in parts[i]
    decreases |s|
  {
    match IndexOf(s, sep)
    case None => [s]
    case Some(i) => [s[..i]] + Split(s[i + 1..], sep)
  }

  /** No field contains the separator. */
  ghost predicate Separable(parts: seq<string>, sep: char)
  {
    forall i | 0 <= i < |parts| :: sep !in parts[i]
  }

  /** Splitting what was joined gives back the fields, provided there is at
      least one and none contains the separator. */
  lemma {:induction false} SplitJoin(parts: seq<string>, sep: char)
    requires |parts| >= 1 && Separable(parts, sep)
    ensures Split(Join(parts, sep), sep) == parts
    decreases |parts|
  {
    if |parts| > 1 {
      var p := parts[0];
      var rest := Join(parts[1..], sep);
      var s := p + ([sep] + rest);
      assert Join(parts, sep) == s;
      assert IndexOf(s, sep) == Some(|p|) by {
        assert sep !in parts[0];
        IndexOfPrefix(p, [sep] + rest, sep);
      }
      assert s[..|p|] == p && s[|p| + 1..] == rest;
      assert Split(s, sep) == [p] + Split(rest, sep);
      SplitJoin(parts[1..], sep);
      assert parts == [p] + parts[1..];
    }
  }

  lemma IndexOfPrefix(p: string, q: string, sep: char)
    requires sep !in p && |q| >= 1 && q[0] == sep
    ensures IndexOf(p + q, sep) == Some(|p|)
  {
    assert (p + q)[|p|] == sep;
    assert forall k | 0 <= k < |p| :: (p + q)[k] == p[k];
  }

  /** Joining what was split gives back the text. */
  lemma {:induction false} JoinSplit(s: string, sep: char)
    ensures Join(Split(s, sep), sep) == s
    decreases |s|
  {
    match IndexOf(s, sep)
    case None =>
    case Some(i) =>
      JoinSplit(s[i + 1..], sep);
      var rest := Split(s[i + 1..], sep);
      assert Split(s, sep)[1..] == rest;
      assert s == s[..i] + [sep] + s[i + 1..];
  }

  /** Joining two non-empty runs of fields puts one separator between them. */
  lemma {:induction false} JoinAppend(a: seq<string>, b: seq<string>, sep: char)
    requires |a| >= 1 && |b| >= 1
    ensures Join(a + b, sep) == Join(a, sep) + [sep] + Join(b, sep)
    decreases |a|
  {
    if |a| == 1 {
      assert (a + b)[1..] == b;
    } else {
      assert (a + b)[1..] == a[1..] + b;
      JoinAppend(a[1..], b, sep);
    }
  }
}

=== FILE: ppm.dfy ===
/** writeImageToFile: the readback buffer written as a plain PPM ("P3")
    text. The header is the magic number, the size line and the maximum
    channel value, one per line; then each row of the image is one line of
    channel values, every value followed by a space. */
module Ppm {
  import opened Wrappers
  import opened Config
  import opened Decimal
  import opened Lines
  import opened Readback

  const Magic: string := "P3"

  /** The maximum channel value, and the text the header declares it with. */
  const MaxValue: nat := 255
  const MaxValueText: string := "255"

  /** A decoded image: its size and, per row, the 3 * width channel values. */
  datatype Image = Image(width: nat, height: nat, rows: seq<seq<nat>>)

  /** `height` rows of `width` pixels of three channels, each at most 255. */
  ghost predicate WellFormed(img: Image)
  {
    && |img.rows| == img.height
    && (forall r | 0 <= r < |img.rows| :: |img.rows[r]| == PpmChannels * img.width)
    && (forall r, i | 0 <= r < |img.rows| && 0 <= i < |img.rows[r]| :: img.rows[r][i] <= MaxValue)
  }

  // ---------------------------------------------------------------------
  // From the buffer to channel values

  /** Channel `ch` of pixel `c` lies in that pixel's 4 bytes, inside the row. */
  lemma ChannelInRow(w: nat, c: nat, ch: nat)
    requires c < w && ch < PpmChannels
    ensures c * RgbaChannels + ch < RowBytes(w)
  {
  }

  lemma ChannelIndex(c: nat, ch: nat)
    requires ch < PpmChannels
    ensures (PpmChannels * c + ch) / PpmChannels == c && (PpmChannels * c + ch) % PpmChannels == ch
  {
  }

  /** The channel values the writer emits for row `r`: for each pixel, its
      first three bytes; the alpha byte is skipped. Value i is channel i % 3
      of pixel i / 3. */
  function RowValues(data: seq<Byte>, w: nat, h: nat, pitch: nat, r: nat): (vs: seq<nat>)
    requires Footprint(w, h, pitch, |data|) && r < h
    ensures |vs| == PpmChannels * w
    ensures forall i | 0 <= i < |vs| :: vs[i] <= MaxValue
  {
    RowInBuffer(w, h, pitch, |data|, r);
    seq(PpmChannels * w, i requires 0 <= i < PpmChannels * w =>
      ChannelInRow(w, i / PpmChannels, i % PpmChannels);
      data[RowOffset(r, pitch) + (i / PpmChannels) * RgbaChannels + i % PpmChannels])
  }

  function Values(data: seq<Byte>, w: nat, h: nat, pitch: nat): (img: Image)
    requires Footprint(w, h, pitch, |data|)
    ensures WellFormed(img) && img.width == w && img.height == h
  {
    Image(w, h, seq(h, r requires 0 <= r < h => RowValues(data, w, h, pitch, r)))
  }

  /** The PPM values are the image getQImageForFrame returns, less alpha:
      channel ch of pixel c of row r is byte 4c + ch of scanline r. */
  lemma ValuesMatchScanlines(data: seq<Byte>, w: nat, h: nat, pitch: nat, r: nat, c: nat, ch: nat)
    requires Footprint(w, h, pitch, |data|)
    requires r < h && c < w && ch < PpmChannels
    ensures c * RgbaChannels + ch < RowBytes(w)
    ensures Values(data, w, h, pitch).rows[r][PpmChannels * c + ch]
            == Depad(data, w, h, pitch)[r][c * RgbaChannels + ch]
  {
    ChannelIndex(c, ch);
    ChannelInRow(w, c, ch);
    RowInBuffer(w, h, pitch, |data|, r);
  }

  // ---------------------------------------------------------------------
  // Text

  /** `file << v << ' '` for each value in turn. */
  function ValuesText(vs: seq<nat>): string
    decreases |vs|
  {
    if vs == [] then "" else Dec(vs[0]) + " " + ValuesText(vs[1..])
  }

  /** Each row's values, then '\n'. */
  function RowsText(rows: seq<seq<nat>>): string
    decreases |rows|
  {
    if rows == [] then "" else ValuesText(rows[0]) + "\n" + RowsText(rows[1..])
  }

  /** The size line of DXRTRenderer: width, a space, height. */
  function SizeLine(w: nat, h: nat): string
  {
    Dec(w) + " " + Dec(h)
  }

  /** The size line of CDXCRenderer: width and height with nothing between. */
  function LegacySizeLine(w: nat, h: nat): string
  {
    Dec(w) + Dec(h)
  }

  /** The header's maximum is the bound every channel value keeps. */
  lemma MaxValueTextDenotes()
    ensures Parse(MaxValueText) == Some(MaxValue)
    ensures Dec(MaxValue) == MaxValueText
  {
    DecOfValue(MaxValueText);
  }

  function Header(sizeLine: string): string
  {
    Magic + "\n" + sizeLine + "\n" + MaxValueText + "\n"
  }

  function Encode(img: Image): string
  {
    Header(SizeLine(img.width, img.height)) + RowsText(img.rows)
  }

  function LegacyEncode(img: Image): string
  {
    Header(LegacySizeLine(img.width, img.height)) + RowsText(img.rows)
  }

  lemma {:induction false} ValuesTextAppend(vs: seq<nat>, v: nat)
    ensures ValuesText(vs + [v]) == ValuesText(vs) + Dec(v) + " "
    decreases |vs|
  {
    if vs != [] {
      assert (vs + [v])[1..] == vs[1..] + [v];
      ValuesTextAppend(vs[1..], v);
    }
  }

  lemma {:induction false} RowsTextAppend(rows: seq<seq<nat>>, row: seq<nat>)
    ensures RowsText(rows + [row]) == RowsText(rows) + ValuesText(row) + "\n"
    decreases |rows|
  {
    if rows != [] {
      assert (rows + [row])[1..] == rows[1..] + [row];
      RowsTextAppend(rows[1..], row);
    }
  }

  // ---------------------------------------------------------------------
  // The writer's loops

  /** The row loop of writeImageToFile (both renderers): each row's line,
      then a newline. */
  method WriteRows(data: seq<Byte>, w: nat, h: nat, pitch: nat) returns (body: string)
    requires Footprint(w, h, pitch, |data|)
    ensures body == RowsText(Values(data, w, h, pitch).rows)
  {
    var rows := Values(data, w, h, pitch).rows;
    body := "";
    var rowIdx := 0;
    while rowIdx < h
      invariant 0 <= rowIdx <= h
      invariant body == RowsText(rows[..rowIdx])
    {
      var line := WriteRow(data, w, h, pitch, rowIdx);
      assert rows[..rowIdx + 1] == rows[..rowIdx] + [rows[rowIdx]];
      RowsTextAppend(rows[..rowIdx], rows[rowIdx]);
      body := body + line + "\n";
      rowIdx := rowIdx + 1;
    }
    assert rows[..h] == rows;
  }

  /** Writing one more channel extends the row's text by that value. */
  lemma ChannelStep(data: seq<Byte>, w: nat, h: nat, pitch: nat, r: nat, c: nat, ch: nat)
    requires Footprint(w, h, pitch, |data|) && r < h && c < w && ch < PpmChannels
    ensures RowOffset(r, pitch) + c * RgbaChannels + ch < |data|
    ensures var vs := RowValues(data, w, h, pitch, r);
            var k := PpmChannels * c + ch;
            k < |vs| &&
            ValuesText(vs[..k + 1]) == ValuesText(vs[..k]) + Dec(data[RowOffset(r, pitch) + c * RgbaChannels + ch]) + " "
  {
    RowInBuffer(w, h, pitch, |data|, r);
    ChannelInRow(w, c, ch);
    ChannelIndex(c, ch);
    var vs := RowValues(data, w, h, pitch, r);
    var k := PpmChannels * c + ch;
    assert vs[k] == data[RowOffset(r, pitch) + c * RgbaChannels + ch];
    assert vs[..k + 1] == vs[..k] + [vs[k]];
    ValuesTextAppend(vs[..k], vs[k]);
  }

  /** One row: for each pixel, channels 0..2 each followed by a space. */
  method WriteRow(data: seq<Byte>, w: nat, h: nat, pitch: nat, rowIdx: nat) returns (line: string)
    requires Footprint(w, h, pitch, |data|) && rowIdx < h
    ensures line == ValuesText(RowValues(data, w, h, pitch, rowIdx))
  {
    line := "";
    var colIdx := 0;
    while colIdx < w
      invariant 0 <= colIdx <= w
      invariant line == ValuesText(RowValues(data, w, h, pitch, rowIdx)[..PpmChannels * colIdx])
    {
      line := WritePixel(data, w, h, pitch, rowIdx, colIdx, line);
      colIdx := colIdx + 1;
    }
    assert RowValues(data, w, h, pitch, rowIdx)[..PpmChannels * w] == RowValues(data, w, h, pitch, rowIdx);
  }

  /** One pixel, read at `rowData + colIdx * RGBA_COLOR_CHANNELS_COUNT`:
      its first three channels are appended to the row's text. */
  method WritePixel(data: seq<Byte>, w: nat, h: nat, pitch: nat, rowIdx: nat, colIdx: nat, prefix: string)
    returns (line: string)
    requires Footprint(w, h, pitch, |data|) && rowIdx < h && colIdx < w
    requires prefix == ValuesText(RowValues(data, w, h, pitch, rowIdx)[..PpmChannels * colIdx])
    ensures line == ValuesText(RowValues(data, w, h, pitch, rowIdx)[..PpmChannels * (colIdx + 1)])
  {
    RowInBuffer(w, h, pitch, |data|, rowIdx);
    var pixelData := RowOffset(rowIdx, pitch) + colIdx * RgbaChannels;
    line := prefix;
    var channelIdx := 0;
    while channelIdx < PpmChannels
      invariant 0 <= channelIdx <= PpmChannels
      invariant line == ValuesText(RowValues(data, w, h, pitch, rowIdx)[..PpmChannels * colIdx + channelIdx])
    {
      ChannelStep(data, w, h, pitch, rowIdx, colIdx, channelIdx);
      line := line + Dec(data[pixelData + channelIdx]) + " ";
      channelIdx := channelIdx + 1;
    }
  }

  /** DXRTRenderer's writeImageToFile: the text written to output.ppm. */
  method WriteImageToFile(data: seq<Byte>, w: nat, h: nat, pitch: nat) returns (text: string)
    requires Footprint(w, h, pitch, |data|)
    ensures text == Encode(Values(data, w, h, pitch))
  {
    var body := WriteRows(data, w, h, pitch);
    text := "P3\n" + Dec(w) + " " + Dec(h) + "\n255\n" + body;
  }

  /** CDXCRenderer's writeImageToFile: the same, but the size line has no
      separator. */
  method LegacyWriteImageToFile(data: seq<Byte>, w: nat, h: nat, pitch: nat) returns (text: string)
    requires Footprint(w, h, pitch, |data|)
    ensures text == LegacyEncode(Values(data, w, h, pitch))
  {
    var body := WriteRows(data, w, h, pitch);
    text := "P3\n" + Dec(w) + Dec(h) + "\n255\n" + body;
  }

  // ---------------------------------------------------------------------
  // Reading the text back

  /** The decimal texts of the values. */
  function DecTexts(vs: seq<nat>): (ts: seq<string>)
    ensures |ts| == |vs|
    ensures forall i | 0 <= i < |vs| :: ts[i] == Dec(vs[i])
  {
    seq(|vs|, i requires 0 <= i < |vs| => Dec(vs[i]))
  }

  /** The lines holding the rows. */
  function RowLines(rows: seq<seq<nat>>): (ls: seq<string>)
    ensures |ls| == |rows|
    ensures forall r | 0 <= r < |rows| :: ls[r] == ValuesText(rows[r])
  {
    seq(|rows|, r requires 0 <= r < |rows| => ValuesText(rows[r]))
  }

  function ParseValues(fields: seq<string>): (r: Option<seq<nat>>)
    ensures r.Some? ==> |r.value| == |fields| && forall i | 0 <= i < |fields| :: r.value[i] <= MaxValue
    decreases |fields|
  {
    if fields == [] then Some([])
    else
      var v :- Parse(fields[0]);
      if v > MaxValue then None
      else
        var rest :- ParseValues(fields[1..]);
        Some([v] + rest)
  }

  /** A row line: every value is followed by a space, so the last field is
      empty. */
  function ParseRow(line: string): (r: Option<seq<nat>>)
    ensures r.Some? ==> forall i | 0 <= i < |r.value| :: r.value[i] <= MaxValue
  {
    var fields := Split(line, ' ');
    if fields[|fields| - 1] != "" then None else ParseValues(fields[..|fields| - 1])
  }

  function ParseRows(lines: seq<string>): (r: Option<seq<seq<nat>>>)
    ensures r.Some? ==> |r.value| == |lines|
    ensures r.Some? ==> forall k, i | 0 <= k < |lines| && 0 <= i < |r.value[k]| :: r.value[k][i] <= MaxValue
    decreases |lines|
  {
    if lines == [] then Some([])
    else
      var row :- ParseRow(lines[0]);
      var rest :- ParseRows(lines[1..]);
      Some([row] + rest)
  }

  /** The size line: two decimals separated by one space. */
  function ParseSize(line: string): Option<(nat, nat)>
  {
    var fields := Split(line, ' ');
    if |fields| != 2 then None
    else
      var w :- Parse(fields[0]);
      var h :- Parse(fields[1]);
      Some((w, h))
  }

  /** A reader for exactly the texts the writer produces. */
  function Decode(text: string): (r: Option<Image>)
    ensures r.Some? ==> WellFormed(r.value)
  {
    DecodeLineSeq(Split(text, '\n'))
  }

  /** The lines must be the magic number, the size line, the maximum value,
      one line per row of 3 * width values, and nothing after the final
      newline. */
  function DecodeLineSeq(lines: seq<string>): (r: Option<Image>)
    ensures r.Some? ==> WellFormed(r.value)
  {
    if |lines| < 4 || lines[0] != Magic || lines[2] != MaxValueText || lines[|lines| - 1] != "" then None
    else
      var size :- ParseSize(lines[1]);
      var rows :- ParseRows(lines[3..|lines| - 1]);
      if |rows| == size.1 && forall r | 0 <= r < |rows| :: |rows[r]| == PpmChannels * size.0
      then Some(Image(size.0, size.1, rows))
      else None
  }

  // ---------------------------------------------------------------------
  // The text as lines and fields

  lemma DecSeparable(n: nat, c: char)
    requires !IsDigit(c)
    ensures c !in Dec(n)
  {
  }

  lemma DecTextsSeparable(vs: seq<nat>)
    ensures Separable(DecTexts(vs) + [""], ' ')
  {
    var ts := DecTexts(vs) + [""];
    forall i | 0 <= i < |ts|
      ensures ' ' !in ts[i]
    {
      if i < |vs| {
        DecSeparable(vs[i], ' ');
      }
    }
  }

  /** A row line is the values' decimals joined by spaces, with an empty
      field after the last space. */
  lemma {:induction false} ValuesTextFields(vs: seq<nat>)
    ensures ValuesText(vs) == Join(DecTexts(vs) + [""], ' ')
    decreases |vs|
  {
    if vs != [] {
      ValuesTextFields(vs[1..]);
      var parts := DecTexts(vs) + [""];
      assert parts[1..] == DecTexts(vs[1..]) + [""];
    }
  }

  lemma {:induction false} ValuesTextOneLine(vs: seq<nat>)
    ensures '\n' !in ValuesText(vs)
    decreases |vs|
  {
    if vs != [] {
      DecSeparable(vs[0], '\n');
      ValuesTextOneLine(vs[1..]);
    }
  }

  /** The body is the row lines joined by newlines, with an empty field after
      the last newline. */
  lemma {:induction false} RowsTextLines(rows: seq<seq<nat>>)
    ensures RowsText(rows) == Join(RowLines(rows) + [""], '\n')
    decreases |rows|
  {
    if rows != [] {
      RowsTextLines(rows[1..]);
      var parts := RowLines(rows) + [""];
      assert parts[1..] == RowLines(rows[1..]) + [""];
    }
  }

  /** The whole text as lines: magic, size line, maximum value, one line per
      row, and the empty field after the final newline. */
  lemma TextLines(sizeLine: string, rows: seq<seq<nat>>)
    ensures Header(sizeLine) + RowsText(rows)
            == Join([Magic, sizeLine, MaxValueText] + (RowLines(rows) + [""]), '\n')
  {
    RowsTextLines(rows);
    JoinAppend([Magic, sizeLine, MaxValueText], RowLines(rows) + [""], '\n');
    var hs := [Magic, sizeLine, MaxValueText];
    assert Join([MaxValueText], '\n') == MaxValueText;
    assert [sizeLine, MaxValueText][1..] == [MaxValueText];
    assert Join([sizeLine, MaxValueText], '\n') == sizeLine + "\n" + MaxValueText;
    assert hs[1..] == [sizeLine, MaxValueText];
    assert Join(hs, '\n') == Magic + "\n" + (sizeLine + "\n" + MaxValueText);
  }

  lemma LinesSeparable(sizeLine: string, rows: seq<seq<nat>>)
    requires '\n' !in sizeLine
    ensures Separable([Magic, sizeLine, MaxValueText] + (RowLines(rows) + [""]), '\n')
  {
    var ls := [Magic, sizeLine, MaxValueText] + (RowLines(rows) + [""]);
    forall i | 0 <= i < |ls|
      ensures '\n' !in ls[i]
    {
      if 3 <= i < 3 + |rows| {
        ValuesTextOneLine(rows[i - 3]);
      }
    }
  }

  // ---------------------------------------------------------------------
  // Round trip

  lemma {:induction false} ParseValuesDecTexts(vs: seq<nat>)
    requires forall i | 0 <= i < |vs| :: vs[i] <= MaxValue
    ensures ParseValues(DecTexts(vs)) == Some(vs)
    decreases |vs|
  {
    if vs != [] {
      ParseDec(Dec(vs[0]), vs[0]);
      assert DecTexts(vs)[1..] == DecTexts(vs[1..]);
      ParseValuesDecTexts(vs[1..]);
      assert vs == [vs[0]] + vs[1..];
    }
  }

  lemma ParseRowText(vs: seq<nat>)
    requires forall i | 0 <= i < |vs| :: vs[i] <= MaxValue
    ensures ParseRow(ValuesText(vs)) == Some(vs)
  {
    ValuesTextFields(vs);
    DecTextsSeparable(vs);
    SplitJoin(DecTexts(vs) + [""], ' ');
    assert (DecTexts(vs) + [""])[..|vs|] == DecTexts(vs);
    ParseValuesDecTexts(vs);
  }

  lemma {:induction false} ParseRowsLines(rows: seq<seq<nat>>)
    requires forall r, i | 0 <= r < |rows| && 0 <= i < |rows[r]| :: rows[r][i] <= MaxValue
    ensures ParseRows(RowLines(rows)) == Some(rows)
    decreases |rows|
  {
    if rows != [] {
      ParseRowText(rows[0]);
      assert RowLines(rows)[1..] == RowLines(rows[1..]);
      ParseRowsLines(rows[1..]);
      assert rows == [rows[0]] + rows[1..];
    }
  }

  lemma ParseSizeLine(w: nat, h: nat)
    ensures ParseSize(SizeLine(w, h)) == Some((w, h))
  {
    DecSeparable(w, ' ');
    DecSeparable(h, ' ');
    assert SizeLine(w, h) == Join([Dec(w), Dec(h)], ' ');
    SplitJoin([Dec(w), Dec(h)], ' ');
    ParseDec(Dec(w), w);
    ParseDec(Dec(h), h);
  }

  /** Different sizes give different size lines. */
  lemma SizeLineInjective(w1: nat, h1: nat, w2: nat, h2: nat)
    requires SizeLine(w1, h1) == SizeLine(w2, h2)
    ensures w1 == w2 && h1 == h2
  {
    ParseSizeLine(w1, h1);
    ParseSizeLine(w2, h2);
  }

  lemma SizeLineOneLine(w: nat, h: nat)
    ensures '\n' !in SizeLine(w, h)
  {
    DecSeparable(w, '\n');
    DecSeparable(h, '\n');
  }

  /** Splitting a text the writer produced at newlines gives its lines. */
  lemma SplitText(sizeLine: string, rows: seq<seq<nat>>)
    requires '\n' !in sizeLine
    ensures Split(Header(sizeLine) + RowsText(rows), '\n')
            == [Magic, sizeLine, MaxValueText] + (RowLines(rows) + [""])
  {
    TextLines(sizeLine, rows);
    LinesSeparable(sizeLine, rows);
    SplitJoin([Magic, sizeLine, MaxValueText] + (RowLines(rows) + [""]), '\n');
  }

  lemma EncodeLines(img: Image)
    ensures Split(Encode(img), '\n')
            == [Magic, SizeLine(img.width, img.height), MaxValueText] + (RowLines(img.rows) + [""])
  {
    SizeLineOneLine(img.width, img.height);
    SplitText(SizeLine(img.width, img.height), img.rows);
  }

  /** A text whose lines are those of a well-formed image decodes to it. */
  lemma DecodeLines(text: string, img: Image)
    requires WellFormed(img)
    requires Split(text, '\n')
             == [Magic, SizeLine(img.width, img.height), MaxValueText] + (RowLines(img.rows) + [""])
    ensures Decode(text) == Some(img)
  {
    var ls := Split(text, '\n');
    var sl := SizeLine(img.width, img.height);
    assert ls[1] == sl && |ls| == |img.rows| + 4;
    assert ls[3..|ls| - 1] == RowLines(img.rows);
    ParseSizeLine(img.width, img.height);
    ParseRowsLines(img.rows);
    DecodeLineSeqOk(ls, img);
  }

  lemma DecodeLineSeqOk(ls: seq<string>, img: Image)
    requires WellFormed(img)
    requires |ls| >= 4 && ls[0] == Magic && ls[2] == MaxValueText && ls[|ls| - 1] == ""
    requires ParseSize(ls[1]) == Some((img.width, img.height))
    requires ParseRows(ls[3..|ls| - 1]) == Some(img.rows)
    ensures DecodeLineSeq(ls) == Some(img)
  {
  }

  /** Reading back what writeImageToFile writes gives back the image. */
  lemma DecodeEncode(img: Image)
    requires WellFormed(img)
    ensures Decode(Encode(img)) == Some(img)
  {
    EncodeLines(img);
    DecodeLines(Encode(img), img);
  }

  // ---------------------------------------------------------------------
  // The reader accepts nothing else

  lemma {:induction false} ParseValuesInverse(fields: seq<string>, vs: seq<nat>)
    requires ParseValues(fields) == Some(vs)
    ensures fields == DecTexts(vs)
    decreases |fields|
  {
    if fields != [] {
      var v := Parse(fields[0]).value;
      ParseDec(fields[0], v);
      ParseValuesInverse(fields[1..], vs[1..]);
      assert fields == [fields[0]] + fields[1..];
    }
  }

  lemma ParseRowInverse(line: string, vs: seq<nat>)
    requires ParseRow(line) == Some(vs)
    ensures line == ValuesText(vs)
  {
    var fields := Split(line, ' ');
    var n := |fields|;
    ParseValuesInverse(fields[..n - 1], vs);
    assert fields == DecTexts(vs) + [""];
    JoinSplit(line, ' ');
    ValuesTextFields(vs);
  }

  lemma {:induction false} ParseRowsInverse(lines: seq<string>, rows: seq<seq<nat>>)
    requires ParseRows(lines) == Some(rows)
    ensures lines == RowLines(rows)
    decreases |lines|
  {
    if lines != [] {
      var row := ParseRow(lines[0]).value;
      var rest := ParseRows(lines[1..]).value;
      assert rows == [row] + rest;
      assert lines[0] == ValuesText(row) by {
        ParseRowInverse(lines[0], row);
      }
      assert lines[1..] == RowLines(rest) by {
        ParseRowsInverse(lines[1..], rest);
      }
      assert lines == [lines[0]] + lines[1..];
    }
  }

  lemma ParseSizeInverse(line: string, w: nat, h: nat)
    requires ParseSize(line) == Some((w, h))
    ensures line == SizeLine(w, h)
  {
    var fields := Split(line, ' ');
    ParseDec(fields[0], w);
    ParseDec(fields[1], h);
    JoinSplit(line, ' ');
    assert fields[1..] == [fields[1]];
  }

  lemma DecodeLineSeqInverse(ls: seq<string>)
    requires DecodeLineSeq(ls).Some?
    ensures var img := DecodeLineSeq(ls).value;
            ls == [Magic, SizeLine(img.width, img.height), MaxValueText] + (RowLines(img.rows) + [""])
  {
    var img := DecodeLineSeq(ls).value;
    var n := |ls|;
    assert ls[1] == SizeLine(img.width, img.height) by {
      ParseSizeInverse(ls[1], img.width, img.height);
    }
    assert ls[3..n - 1] == RowLines(img.rows) by {
      ParseRowsInverse(ls[3..n - 1], img.rows);
    }
    assert ls == [ls[0], ls[1], ls[2]] + (ls[3..n - 1] + [ls[n - 1]]);
  }

  /** Whatever the reader accepts is exactly what the writer writes for the
      image it returns. */
  lemma EncodeDecode(text: string)
    requires Decode(text).Some?
    ensures Encode(Decode(text).value) == text
  {
    var img := Decode(text).value;
    DecodeLineSeqInverse(Split(text, '\n'));
    JoinSplit(text, '\n');
    TextLines(SizeLine(img.width, img.height), img.rows);
  }

  /** The writer's texts and the well-formed images correspond one to one. */
  lemma DecodeExactly(text: string, img: Image)
    ensures Decode(text) == Some(img) <==> WellFormed(img) && text == Encode(img)
  {
    if Decode(text) == Some(img) {
      EncodeDecode(text);
    }
    if WellFormed(img) && text == Encode(img) {
      DecodeEncode(img);
    }
  }

  // ---------------------------------------------------------------------
  // CDXCRenderer's header

  /** Without a separator the size line does not determine the size: a 1 by
      23 image and a 12 by 3 image get the same header line "123". Only the
      header is ambiguous: the writer never gives both sizes the same rows,
      because the line count fixes the height (`LegacyLinesFixHeight`). */
  lemma LegacyHeaderAmbiguous()
    ensures LegacySizeLine(1, 23) == LegacySizeLine(12, 3) == "123"
    ensures forall rows :: LegacyEncode(Image(1, 23, rows)) == LegacyEncode(Image(12, 3, rows))
    ensures SizeLine(1, 23) != SizeLine(12, 3)
  {
    assert Dec(1) == "1" && Dec(3) == "3";
    assert Dec(23) == "23" && Dec(12) == "12";
    assert SizeLine(1, 23)[1] != SizeLine(12, 3)[1];
  }

  /** Two texts the older writer produces for well-formed images are equal
      only when the heights are: one line per row follows the header. */
  lemma LegacyLinesFixHeight(img1: Image, img2: Image)
    requires WellFormed(img1) && WellFormed(img2)
    requires LegacyEncode(img1) == LegacyEncode(img2)
    ensures img1.height == img2.height
  {
    var sl1 := LegacySizeLine(img1.width, img1.height);
    var sl2 := LegacySizeLine(img2.width, img2.height);
    DecSeparable(img1.width, '\n');
    DecSeparable(img1.height, '\n');
    DecSeparable(img2.width, '\n');
    DecSeparable(img2.height, '\n');
    SplitText(sl1, img1.rows);
    SplitText(sl2, img2.rows);
  }

  /** `Decode`, the reader of DXRTRenderer's format, rejects every text
      CDXCRenderer writes: its size line is a single field. */
  lemma LegacyNeverDecodes(img: Image)
    ensures Decode(LegacyEncode(img)) == None
  {
    var sl := LegacySizeLine(img.width, img.height);
    DecSeparable(img.width, '\n');
    DecSeparable(img.height, '\n');
    SplitText(sl, img.rows);
    DecSeparable(img.width, ' ');
    DecSeparable(img.height, ' ');
    assert Split(sl, ' ') == [sl];
  }
}

=== FILE: readback.dfy ===
/** getQImageForFrame: the mapped readback buffer holds the texture row by
    row, each row starting at a multiple of the footprint's row pitch; the
    image keeps the first width * 4 bytes of each row and drops the padding. */
module Readback {
  import opened Config

  /** `row * rowPitch`, computed in UINT arithmetic as the source does. */
  function RowOffset(row: nat, pitch: nat): (off: nat)
    ensures off < U32
    ensures off <= row * pitch
    ensures row * pitch < U32 ==> off == row * pitch
  {
    (row * pitch) % U32
  }

  /** Bytes of one row of pixels: `textureDesc.Width * RGBA_COLOR_CHANNELS_COUNT`. */
  function RowBytes(w: nat): nat
  {
    w * RgbaChannels
  }

  /** The layout GetCopyableFootprints reports for a w-by-h RGBA8 texture and
      the readback buffer is sized by: a row's pixels fit in the pitch, the
      pitch is a UINT, and the buffer reaches the end of the last row's
      pixels. */
  predicate Footprint(w: nat, h: nat, pitch: nat, size: nat)
  {
    && RowBytes(w) <= pitch < U32
    && (h == 0 || (h - 1) * pitch + RowBytes(w) <= size)
  }

  lemma MulLe(a: nat, b: nat, c: nat)
    requires a <= b
    ensures a * c <= b * c
  {
  }

  lemma MulPred(a: nat, c: nat)
    requires a > 0
    ensures a * c == (a - 1) * c + c
  {
  }

  /** Every row the loop reads lies inside the buffer, wrap-around or not. */
  lemma RowInBuffer(w: nat, h: nat, pitch: nat, size: nat, r: nat)
    requires Footprint(w, h, pitch, size) && r < h
    ensures RowOffset(r, pitch) + RowBytes(w) <= size
  {
    MulLe(r, h - 1, pitch);
  }

  /** Row `r` of the image: the bytes memcpy copies from the mapped buffer. */
  function Scanline(data: seq<Byte>, w: nat, h: nat, pitch: nat, r: nat): (line: seq<Byte>)
    requires Footprint(w, h, pitch, |data|) && r < h
    ensures |line| == RowBytes(w)
  {
    RowInBuffer(w, h, pitch, |data|, r);
    data[RowOffset(r, pitch)..RowOffset(r, pitch) + RowBytes(w)]
  }

  /** The QImage's h scanlines, each width * 4 bytes. */
  function Depad(data: seq<Byte>, w: nat, h: nat, pitch: nat): (image: seq<seq<Byte>>)
    requires Footprint(w, h, pitch, |data|)
    ensures |image| == h
    ensures forall r | 0 <= r < h :: |image[r]| == RowBytes(w)
  {
    seq(h, r requires 0 <= r < h => Scanline(data, w, h, pitch, r))
  }

  /** The copy loop of getQImageForFrame, with memcpy written out byte by byte. */
  method GetImageForFrame(data: seq<Byte>, w: nat, h: nat, pitch: nat) returns (image: seq<seq<Byte>>)
    requires Footprint(w, h, pitch, |data|)
    ensures image == Depad(data, w, h, pitch)
  {
    image := [];
    var row := 0;
    while row < h
      invariant 0 <= row <= h
      invariant image == Depad(data, w, h, pitch)[..row]
    {
      var dst := CopyScanline(data, w, h, pitch, row);
      assert Depad(data, w, h, pitch)[..row + 1] == Depad(data, w, h, pitch)[..row] + [dst];
      image := image + [dst];
      row := row + 1;
    }
  }

  /** One memcpy of width * 4 bytes from `mappedData + row * rowPitch`. */
  method CopyScanline(data: seq<Byte>, w: nat, h: nat, pitch: nat, row: nat) returns (dst: seq<Byte>)
    requires Footprint(w, h, pitch, |data|) && row < h
    ensures dst == Scanline(data, w, h, pitch, row)
  {
    RowInBuffer(w, h, pitch, |data|, row);
    var src := RowOffset(row, pitch);
    dst := [];
    var k := 0;
    while k < RowBytes(w)
      invariant 0 <= k <= RowBytes(w)
      invariant dst == data[src..src + k]
    {
      dst := dst + [data[src + k]];
      k := k + 1;
    }
  }

  /** While the last row's offset fits in a UINT, byte k of row r is the
      buffer's byte r * pitch + k. */
  lemma DepadBytes(data: seq<Byte>, w: nat, h: nat, pitch: nat)
    requires Footprint(w, h, pitch, |data|)
    requires h == 0 || (h - 1) * pitch < U32
    ensures forall r, k | 0 <= r < h && 0 <= k < RowBytes(w) ::
              r * pitch + k < |data| && Depad(data, w, h, pitch)[r][k] == data[r * pitch + k]
  {
    forall r, k | 0 <= r < h && 0 <= k < RowBytes(w)
      ensures r * pitch + k < |data| && Depad(data, w, h, pitch)[r][k] == data[r * pitch + k]
    {
      MulLe(r, h - 1, pitch);
      RowInBuffer(w, h, pitch, |data|, r);
    }
  }

  /** Byte `i` of the buffer lies in the pixels of some row. */
  ghost predicate PixelByte(i: nat, w: nat, h: nat, pitch: nat)
  {
    exists r | 0 <= r < h :: RowOffset(r, pitch) <= i < RowOffset(r, pitch) + RowBytes(w)
  }

  /** Two buffers hold the same pixels: they agree on every pixel byte. */
  ghost predicate SamePixels(d1: seq<Byte>, d2: seq<Byte>, w: nat, h: nat, pitch: nat)
  {
    forall i | 0 <= i < |d1| && 0 <= i < |d2| && PixelByte(i, w, h, pitch) :: d1[i] == d2[i]
  }

  /** The image depends on the pixel bytes and on nothing else: padding bytes
      are never copied, and every pixel byte is. */
  lemma OnlyPixelsCopied(d1: seq<Byte>, d2: seq<Byte>, w: nat, h: nat, pitch: nat)
    requires Footprint(w, h, pitch, |d1|) && Footprint(w, h, pitch, |d2|)
    ensures Depad(d1, w, h, pitch) == Depad(d2, w, h, pitch) <==> SamePixels(d1, d2, w, h, pitch)
  {
    if Depad(d1, w, h, pitch) == Depad(d2, w, h, pitch) {
      EveryPixelCopied(d1, d2, w, h, pitch);
    }
    if SamePixels(d1, d2, w, h, pitch) {
      NoPaddingCopied(d1, d2, w, h, pitch);
    }
  }

  /** Byte k of scanline r is the buffer's byte at the row's offset plus k. */
  lemma DepadByte(data: seq<Byte>, w: nat, h: nat, pitch: nat, r: nat, k: nat)
    requires Footprint(w, h, pitch, |data|) && r < h && k < RowBytes(w)
    ensures RowOffset(r, pitch) + k < |data|
    ensures Depad(data, w, h, pitch)[r][k] == data[RowOffset(r, pitch) + k]
  {
    RowInBuffer(w, h, pitch, |data|, r);
  }

  lemma EveryPixelCopied(d1: seq<Byte>, d2: seq<Byte>, w: nat, h: nat, pitch: nat)
    requires Footprint(w, h, pitch, |d1|) && Footprint(w, h, pitch, |d2|)
    requires Depad(d1, w, h, pitch) == Depad(d2, w, h, pitch)
    ensures SamePixels(d1, d2, w, h, pitch)
  {
    forall i | 0 <= i < |d1| && 0 <= i < |d2| && PixelByte(i, w, h, pitch)
      ensures d1[i] == d2[i]
    {
      var r :| 0 <= r < h && RowOffset(r, pitch) <= i < RowOffset(r, pitch) + RowBytes(w);
      var k := i - RowOffset(r, pitch);
      DepadByte(d1, w, h, pitch, r, k);
      DepadByte(d2, w, h, pitch, r, k);
    }
  }

  lemma NoPaddingCopied(d1: seq<Byte>, d2: seq<Byte>, w: nat, h: nat, pitch: nat)
    requires Footprint(w, h, pitch, |d1|) && Footprint(w, h, pitch, |d2|)
    requires SamePixels(d1, d2, w, h, pitch)
    ensures Depad(d1, w, h, pitch) == Depad(d2, w, h, pitch)
  {
    var i1 := Depad(d1, w, h, pitch);
    var i2 := Depad(d2, w, h, pitch);
    forall r | 0 <= r < h
      ensures i1[r] == i2[r]
    {
      forall k | 0 <= k < RowBytes(w)
        ensures i1[r][k] == i2[r][k]
      {
        DepadByte(d1, w, h, pitch, r, k);
        DepadByte(d2, w, h, pitch, r, k);
        assert PixelByte(RowOffset(r, pitch) + k, w, h, pitch);
      }
    }
  }

  /** A buffer laid out with the given pitch: each row followed by zero
      padding up to the pitch. */
  function Pad(image: seq<seq<Byte>>, pitch: nat): (data: seq<Byte>)
    requires forall r | 0 <= r < |image| :: |image[r]| <= pitch
    ensures |data| == |image| * pitch
    decreases |image|
  {
    if image == [] then []
    else image[0] + seq(pitch - |image[0]|, _ => 0) + Pad(image[1..], pitch)
  }

  lemma {:induction false} PadBytes(image: seq<seq<Byte>>, pitch: nat, r: nat, k: nat)
    requires forall i | 0 <= i < |image| :: |image[i]| <= pitch
    requires r < |image| && k < |image[r]|
    ensures r * pitch + k < |Pad(image, pitch)|
    ensures Pad(image, pitch)[r * pitch + k] == image[r][k]
    decreases r
  {
    var head := image[0] + seq(pitch - |image[0]|, _ => 0);
    var rest := Pad(image[1..], pitch);
    assert |head| == pitch;
    assert Pad(image, pitch) == head + rest;
    if r == 0 {
      assert (head + rest)[k] == head[k] == image[0][k];
    } else {
      PadBytes(image[1..], pitch, r - 1, k);
      var i := (r - 1) * pitch + k;
      assert r * pitch + k == pitch + i by { MulPred(r, pitch); }
      assert (head + rest)[pitch + i] == rest[i];
    }
  }

  lemma PadRow(image: seq<seq<Byte>>, w: nat, pitch: nat, r: nat)
    requires forall i | 0 <= i < |image| :: |image[i]| == RowBytes(w)
    requires RowBytes(w) <= pitch < U32
    requires |image| * pitch <= U32
    requires Footprint(w, |image|, pitch, |Pad(image, pitch)|)
    requires r < |image|
    ensures Depad(Pad(image, pitch), w, |image|, pitch)[r] == image[r]
  {
    var data := Pad(image, pitch);
    assert r * pitch < U32 by {
      MulLe(r + 1, |image|, pitch);
      MulPred(r + 1, pitch);
    }
    assert RowOffset(r, pitch) == r * pitch;
    var line := Depad(data, w, |image|, pitch)[r];
    forall k | 0 <= k < RowBytes(w)
      ensures line[k] == image[r][k]
    {
      DepadByte(data, w, |image|, pitch, r, k);
      PadBytes(image, pitch, r, k);
    }
  }

  /** De-padding undoes padding: an image of equal-width rows laid out with
      any pitch that holds a row, and whose offsets fit in a UINT, is read
      back unchanged. */
  lemma DepadPad(image: seq<seq<Byte>>, w: nat, pitch: nat)
    requires forall r | 0 <= r < |image| :: |image[r]| == RowBytes(w)
    requires RowBytes(w) <= pitch < U32
    requires |image| * pitch <= U32
    ensures Footprint(w, |image|, pitch, |Pad(image, pitch)|)
    ensures Depad(Pad(image, pitch), w, |image|, pitch) == image
  {
    var h := |image|;
    var data := Pad(image, pitch);
    if h > 0 {
      MulLe(h - 1, h, pitch);
      assert (h - 1) * pitch + pitch == h * pitch;
    }
    var out := Depad(data, w, h, pitch);
    forall r | 0 <= r < h
      ensures out[r] == image[r]
    {
      PadRow(image, w, pitch, r);
    }
  }
}

=== FILE: swapchain.dfy ===
/** createRenderTargetViewsFromSwapChain: one render-target-view descriptor
    handle per back buffer, laid out consecutively in the swap chain's
    descriptor heap. */
module SwapChain {
  import opened Config

  /** Handle `i`: the heap start advanced by i descriptors. The handle's `ptr`
      is a SIZE_T and `rtvDescriptorSize` a UINT64, so both the offset and the
      sum wrap modulo 2^64. */
  function HandleAt(heapStart: nat, descriptorSize: nat, i: nat): (h: nat)
    ensures h < U64
    ensures heapStart + i * descriptorSize < U64 ==> h == heapStart + i * descriptorSize
  {
    (heapStart + (i * descriptorSize) % U64) % U64
  }

  /** The loop over the back buffers, writing `rtvHandles[scBuffIdx]`. */
  method RtvHandles(heapStart: nat, descriptorSize: nat) returns (handles: seq<nat>)
    ensures |handles| == FrameCount
    ensures forall i | 0 <= i < FrameCount :: handles[i] == HandleAt(heapStart, descriptorSize, i)
  {
    handles := [];
    var scBuffIdx := 0;
    while scBuffIdx < FrameCount
      invariant 0 <= scBuffIdx <= FrameCount
      invariant |handles| == scBuffIdx
      invariant forall i | 0 <= i < scBuffIdx :: handles[i] == HandleAt(heapStart, descriptorSize, i)
    {
      handles := handles + [HandleAt(heapStart, descriptorSize, scBuffIdx)];
      scBuffIdx := scBuffIdx + 1;
    }
  }

  /** When the heap does not reach past the end of the address space, the
      handles are consecutive descriptors: strictly increasing by exactly the
      descriptor size, hence pairwise distinct when that size is positive, and
      all inside the heap's FrameCount descriptors. */
  lemma HandlesLaidOut(heapStart: nat, descriptorSize: nat, i: nat, j: nat)
    requires heapStart + FrameCount * descriptorSize < U64
    requires i < j < FrameCount
    ensures HandleAt(heapStart, descriptorSize, j) - HandleAt(heapStart, descriptorSize, i)
            == (j - i) * descriptorSize
    ensures descriptorSize > 0 ==> HandleAt(heapStart, descriptorSize, i) < HandleAt(heapStart, descriptorSize, j)
    ensures heapStart <= HandleAt(heapStart, descriptorSize, i)
    ensures HandleAt(heapStart, descriptorSize, j) + descriptorSize <= heapStart + FrameCount * descriptorSize
  {
    assert i == 0 && j == 1;
  }

  /** With FrameCount = 2 the two handles coincide exactly when the
      descriptor size is a multiple of 2^64, wrap-around included. */
  lemma HandlesDistinct(heapStart: nat, descriptorSize: nat)
    requires heapStart < U64
    ensures HandleAt(heapStart, descriptorSize, 0) != HandleAt(heapStart, descriptorSize, 1)
            <==> descriptorSize % U64 != 0
  {
    var d := descriptorSize % U64;
    assert HandleAt(heapStart, descriptorSize, 0) == heapStart;
    assert HandleAt(heapStart, descriptorSize, 1) == (heapStart + d) % U64;
    if d != 0 {
      if heapStart + d < U64 {
        assert (heapStart + d) % U64 == heapStart + d;
      } else {
        assert (heapStart + d) % U64 == heapStart + d - U64;
      }
    }
  }
}

=== FILE: wrappers.dfy ===
/** Failure-compatible result types used throughout the model. */
module Wrappers {

  /** A value that may be absent. */
  datatype Option<+T> = None | Some(value: T) {

    predicate IsFailure() {
      None?
    }

    function PropagateFailure<U>(): Option<U>
      requires None?
    {
      None
    }

    function Extract(): T
      requires Some?
    {
      value
    }
  }

  /** The outcome of an operation that can fail with an error value. */
  datatype Result<+T, +E> = Ok(value: T) | Err(error: E) {

    predicate IsFailure() {
      Err?
    }

    function PropagateFailure<U>(): Result<U, E>
      requires Err?
    {
      Err(error)
    }

    function Extract(): T
      requires Ok?
    {
      value
    }
  }
}
